=== FILE: README.md ===
# Puzzle portal: progress, dispatch and the mini-games

A Dafny model of the logic of `script.js`, a single-page puzzle portal. The
player picks one of four modes (memory, logic, shapes, wildcard); each mode
has five levels shown on a grid, where level 1 is always open and level *i*
opens once level *i − 1* is completed. Finishing a level adds it to the
mode's completed list (no duplicates, sorted); when every mode's list holds
five levels the win screen is shown. Behind the levels sit eight small
games: Simon-style sequence recall (memory), a four-digit code lock
(logic), shape-to-slot matching (shapes), and in wildcard mode a reaction
timer, pattern completion, colour mixing, word unscrambling and rhythm
tapping.

The model is functional. Every game is a state record with pure step
functions. Clicks carry the clock reading, and every timer the page
schedules (`setTimeout`) is an event of its own; a step returns the timer it
would schedule as an effect. `Math.random` choices are parameters: the
drawn table row, the drawn colours.

Modules:

- `Progress` (`progress.dfy`): the progress record, the unlock rule and the
  level grid, `completeLevel`'s insert-and-sort, and the win test.
- `Portal` (`portal.dfy`): `selectMode`, `startLevel`, `startWildcardGame`,
  `completeLevel` as screen transitions, and playing the portal through.
- `MemoryGame`, `CodeGame`, `ShapeGame`, `ReactionGame`, `PatternGame`,
  `ColorMixGame`, `WordGame`, `RhythmGame`: one module per game.
- `Digits`: decimal digit characters, shared by the code and pattern games.
- `Wrappers`: `Option` and `Result`.

## Model

| member | source | states |
|---|---|---|
| Progress.Sort | script.js:292 | the numeric sort yields a nondecreasing list |
| Progress.SortPermutes | script.js:292 | the sort keeps exactly the input's elements, each as often as in the input |
| Progress.SortedPermutationUnique | script.js:292 | two nondecreasing arrangements of the same multiset are equal, so the model's sort gives the same list as any correct sort |
| Progress.SortedInsertStrict | script.js:291-292 | inserting a value that is not yet present into a strictly increasing list keeps it strictly increasing |
| Progress.CompleteList | script.js:289-292 | afterwards the level is in the list; a level already present leaves the list unchanged |
| Progress.CompleteListInserts | script.js:289-292 | a level not yet present is added: the list comes out sorted and gains exactly that one level |
| Progress.Complete | script.js:284-292 | marking a level done puts it in the current mode's list and leaves the other three modes' lists unchanged |
| Progress.CompleteAddsOnlyLevel | script.js:289-292 | the current mode's list gains the level if it was missing and nothing else |
| Progress.CompleteListWellFormed | script.js:289-292 | a sorted duplicate-free list stays sorted and duplicate-free, and stays within levels 1..5 when the level is |
| Progress.CompletePreservesValid | script.js:284-292 | completing a level 1..5 keeps every mode's list well formed |
| Progress.CompleteIdempotent | script.js:289-301 | marking the same level done a second time changes nothing |
| Progress.LevelGrid | script.js:147-165 | the grid has buttons 1..5; button *i* is marked done iff *i* is in the list and enabled iff *i* is 1 or *i − 1* is in the list |
| Progress.CompleteKeepsUnlocked | script.js:156-165 | completing any level never locks a level that was open |
| Progress.UnlockedFirstLevels | script.js:156-165 | with levels 1..k done, exactly levels 1..k+1 are open |
| Progress.CompleteOpenLevel | script.js:156-165 | completing an open level of a list 1..k gives 1..k again or 1..k+1 |
| Progress.FullListMeansAllLevels | script.js:304-307 | a well-formed list has length 5 iff it holds every level 1..5 |
| Progress.AllCompleteMeansEveryLevel | script.js:304-311 | on a well-formed record, the four-lengths test holds iff every level of every mode is done |
| Portal.Boot | script.js:2-16 | the page starts with no mode chosen, level 1, the loaded record and the home screen |
| Portal.Navigate | script.js:65-122 | showing the home screen, the mode menu or the grid changes only the screen, and each destination has its own screen |
| Portal.WalkEndsOnLastScreen | script.js:65-122 | any walk through the screens keeps mode, level and record, and ends as a single step to its last screen would |
| Portal.SelectMode | script.js:77-94 | choosing a mode records it and shows the level grid, with progress and level unchanged |
| Portal.WildcardGame | script.js:658-684 | wildcard levels 1..5 start, in order, the reaction, pattern, colour-mixing, word and rhythm games, and other levels none; no wildcard game is one of the three ordinary games |
| Portal.GameFor | script.js:215-245 | memory starts the sequence game for any level; logic starts the code game and shapes the shape game exactly when their table has the level's row; wildcard starts the game its switch names for the level, and its default branch is the only unknown-level error |
| Portal.StartLevel | script.js:174-247 | the level is recorded whatever happens; a game is playing iff a mode is set and the level has a game; only an unknown wildcard level returns to the grid; the unlock rule is not consulted and the record is not changed |
| Portal.FinishLevel | script.js:277-336 | the current mode's list is completed with the current level; the win screen shows iff all four lists hold five levels, otherwise the celebration |
| Portal.CelebrationOver | script.js:317-334 | two seconds after a celebration the grid of the same mode comes back, with mode, level and record unchanged |
| Portal.CelebrationReopensGrid | script.js:147-165 | winning the next open level of a list 1..k and waiting out the celebration shows the grid with levels 1..k+1 done and button *i* enabled iff *i* ≤ k+2 |
| Portal.WildcardGamesDistinct | script.js:658-684 | the five wildcard levels start five different games |
| Portal.LockedLevelStillStarts | script.js:156-165 | a level the grid shows locked still starts a game when started directly: the unlock rule lives in the grid only |
| Portal.FinishWinsIffEverythingDone | script.js:284-311 | on a valid record, finishing a level of 1..5 keeps it valid, and the win screen shows iff every level of every mode is done |
| Portal.CompleteNext | script.js:284-292 | completing level k+1 when levels 1..k are done leaves levels 1..k+1 done and the other modes' lists unchanged |
| Portal.WinNext | script.js:156-165 | the next level of a mode with levels 1..k done is open and starts, and winning it leaves levels 1..k+1 done and the rest of the record unchanged |
| Portal.PlayIsStartThenFinish | script.js:174-247 | a game starts iff a mode is set and it is memory or the level is 1..5; playing a level is starting it, then completing it exactly when a game started |
| Portal.PlayNext | script.js:174-247 | playing the next level completes it when the mode has a game for it; past the tables of logic, shapes and wildcard no game starts and the record stays as it is |
| Portal.PlayNextRecord | script.js:284-292 | playing level n after the mode's reachable levels below n are done leaves its reachable levels up to n done and the rest of the record unchanged |
| Portal.PlayScreen | script.js:228-245 | after playing a level the screen is the win test's verdict when a game ran, else the mode menu (logic, shapes) or the grid (wildcard) |
| Portal.PlayUpToCompletes | script.js:284-292 | from an empty list, playing levels 1..n in order ends with exactly the levels among 1..n that the mode has games for done, every other mode untouched |
| Portal.PlayUpToStep | script.js:284-292 | what playing levels 1..n−1 leaves done carries over to levels 1..n |
| Portal.PlayUpToStartsOpenLevels | script.js:156-165 | playing levels 1..n in order from an empty list only ever starts a level the grid shows unlocked |
| Portal.PlayThrough | script.js:289-311 | choosing an untouched mode and playing 1..n in order changes only that mode's list; after a last level with a game the win test sees the whole record, after one past the table the start's error screen shows |
| Portal.PlayingEverythingWins | script.js:304-311 | from a record with nothing done, playing levels 1..n of every mode in turn ends on the win screen iff n is 5 |
| Portal.NewPlayerWins | script.js:2-16 | starting from the page's empty record, playing levels 1..n of every mode in turn wins iff n is 5 |
| MemoryGame.Start | script.js:436-446 | the target has `level + 2` colours, drawn in order from the random picks, and the attempt is empty |
| MemoryGame.Replay | script.js:492-494 | replaying the sequence blocks input and forgets the attempt, keeping the target |
| MemoryGame.Press | script.js:467-490 | presses are ignored while the sequence shows; an attempt that is a prefix of the target stays one; a retry is scheduled iff the new attempt is not a prefix, and completion iff it equals the target |
| MemoryGame.Step | script.js:463-508 | no event changes the target or breaks the prefix property; a press is handled by the press rule and ignored while showing; the Watch button and the retry timer replay the sequence with a fresh attempt; the end of the replay lets presses through again, keeping the attempt |
| MemoryGame.RepeatingTargetCompletes | script.js:467-490 | from a correct partial attempt, pressing the rest of the target completes on the last press and on no earlier one |
| MemoryGame.FreshAttemptCompletes | script.js:467-490 | pressing the whole target from a fresh attempt completes the level on the last press |
| MemoryGame.PressesWhileShowingIgnored | script.js:468 | any run of presses while the sequence shows changes nothing |
| CodeGame.Start | script.js:512-526 | a level has a game iff it is 1..5, with that level's code and four empty fields |
| CodeGame.Typed | script.js:540-544 | a field keeps at most one character, the last one typed |
| CodeGame.Input | script.js:540-544 | typing changes only the field typed into, and fields stay at most one character |
| CodeGame.Entered | script.js:557-560 | the entered code has one character per field, a blank field read as `0` |
| CodeGame.Check | script.js:556-568 | success iff every field reads as the code's digit at its position (blank only for `0`); a miss clears all four fields and keeps the code |
| CodeGame.CodesAreFourDigits | script.js:513-519 | every table code is four decimal digits |
| CodeGame.BlankIsNotAWildcard | script.js:556-563 | `1`, blank, `3`, `4` fails against 1234 |
| CodeGame.BlankReadsAsZero | script.js:556-563 | `5`, blank, `5`, blank succeeds against 5050 |
| ShapeGame.Start | script.js:572-609 | a level has a game iff it is 1..5, with that level's layout, nothing placed and the counter at 0 |
| ShapeGame.Drop | script.js:617-638 | a drop is accepted iff the shape is still draggable and its name equals the slot's; an accepted drop counts one placement, and completion fires exactly when every shape is placed |
| ShapeGame.DropsAfterCompletionRevert | script.js:632-636 | once every shape is placed, every further drop reverts, so the level completes once |
| ShapeGame.LayoutsMatchOneToOne | script.js:573-579 | level N lays out N distinct shapes and its slots are a permutation of them |
| ShapeGame.UniqueSlot | script.js:618-620 | with distinct shapes and permuted slots, each shape is accepted by one slot and never by two |
| ShapeGame.EveryShapeHasOneSlot | script.js:573-620 | on every level each shape has exactly one accepting slot |
| ReactionGame.Step | script.js:723-778 | clicks are ignored while a response is shown; only the signal timer starts the clock; a reaction time comes only from a click after the signal; below 2000 ms completes, otherwise a cooldown; the signal starts the clock at its firing time unless a response is shown; the cooldown, and only it, re-enables clicks |
| ReactionGame.QuickClickCompletes | script.js:723-766 | arming, the signal, and a click less than 2000 ms after it schedule exactly one completion |
| ReactionGame.ExactlyThresholdFails | script.js:756 | a response of exactly 2000 ms is too slow |
| ReactionGame.EarlyClickOnlyArms | script.js:730-744 | a click before the signal only arms the signal timer |
| ReactionGame.Next | script.js:723-778 | a timer event without a pending timer is impossible, and one event schedules at most one completion |
| ReactionGame.NextKeepsInv | script.js:749-776 | while a response is shown exactly one of a cooldown or a completion is pending, and none otherwise |
| ReactionGame.AtMostOneCompletion | script.js:749-766 | over any sequence of clicks and timer firings the level is completed at most once |
| ReactionGame.BootCompletesAtMostOnce | script.js:696-778 | from a fresh game, at most one completion is ever scheduled |
| PatternGame.ParseInt | script.js:814 | a reading exists iff the text starts with a digit, or a minus sign and a digit |
| PatternGame.ParseShow | script.js:814 | reading back the decimal text of any integer gives that integer |
| PatternGame.ParseStopsAtNonDigit | script.js:814 | the decimal text of any integer followed by anything not starting with a digit (`.5`, `.0`, `e1`) reads as that integer |
| PatternGame.LeadingZeroIgnored | script.js:814 | a leading zero does not change the reading of the digits after it, and a zero followed by no digit reads as 0 |
| PatternGame.FractionIsCutOff | script.js:814 | `16.9` reads as 16 and the empty field reads as nothing |
| PatternGame.Check | script.js:813-821 | success iff the field reads as the row's expected term |
| PatternGame.TypingTheAnswerPasses | script.js:813-821 | typing the decimal text of n passes iff n is the expected term |
| PatternGame.AnswersContinueTheirRule | script.js:786-794 | every row shows the first four terms of its commented rule and expects the fifth |
| ColorMixGame.Pick | script.js:857-864 | a correct pick is the only button showing the row's result |
| ColorMixGame.EveryResultOfferedOnce | script.js:827-850 | every row's result is among the five distinct options, and every row mixes two or three colours |
| ColorMixGame.ExactlyOneWinningOption | script.js:835-864 | whatever row is drawn, exactly one option completes the level |
| WordGame.UpperChar | script.js:892-894 | a..z map to A..Z, dotless i to I and long s to S; every other character is kept |
| WordGame.Upper | script.js:892-894 | upper-casing maps the text one character at a time by that rule |
| WordGame.LeadingSpaces | script.js:897 | the leading white-space run is maximal |
| WordGame.TrailingSpaces | script.js:897 | the trailing white-space run is maximal |
| WordGame.Trim | script.js:897 | the trimmed text lies between a white-space head and tail and neither starts nor ends with white space |
| WordGame.TrimStripsBlanks | script.js:897 | a word surrounded by white space trims to exactly the word |
| WordGame.Input | script.js:892-894 | after typing, the field holds the typed text upper-cased character by character, so no lower-case letter |
| WordGame.AnyCaseSolves | script.js:892-899 | any spelling that upper-cases to the word, with any white space around it, solves the row |
| WordGame.Check | script.js:896-904 | success iff the trimmed field equals the word; a miss empties the field |
| WordGame.DotlessISolves | script.js:892-899 | typing `bra` dotless-i `n` solves the BRAIN row |
| WordGame.LowerCaseWithTrailingSpaceSolves | script.js:892-899 | typing `puzzle ` solves the PUZZLE row |
| WordGame.UpperIdempotent | script.js:892-894 | upper-casing twice is upper-casing once |
| WordGame.ScrambleIsPermutation | script.js:870-876 | every scrambled form has exactly its word's letters in another order, and every word is upper-case |
| RhythmGame.Start | script.js:918-921 | the drawn rhythm with nothing tapped and no anchor, not listening |
| RhythmGame.CheckRhythm | script.js:981-991 | the loop's verdict is true iff every interval is within 200 ms of the played one |
| RhythmGame.Click | script.js:936-952 | while not listening a click replays the rhythm; the first tap only anchors; each later tap appends the time since the previous one; the comparison runs exactly when the last interval arrives and passes iff all intervals match |
| RhythmGame.Step | script.js:936-1003 | the rhythm is never redrawn; a click on the area is handled by the click rule; the end of the playback starts listening; a failed attempt's reset clears listening, anchor and taps |
| RhythmGame.TapsRecordIntervals | script.js:940-952 | up to the last interval, taps at positive times only record the gaps between them |
| RhythmGame.AttemptOutcome | script.js:936-1003 | a full attempt completes iff each gap is within tolerance of the rhythm's, otherwise schedules the reset; no earlier tap has an effect |
| RhythmGame.ToleranceIsPerInterval | script.js:983-990 | 520/480/1150/510 matches 500/500/1000/500, one interval 250 ms off fails, and 200 ms off is still inside |
| RhythmGame.RhythmsHaveFourBeats | script.js:910-916 | every rhythm has four positive intervals |

## Left out

- Page rendering: screens, titles, fades, confetti, particles, floating shapes, shaking and colour feedback are presentation only.
- Saving and loading progress in `localStorage` (script.js:393-428) is foreign I/O: `Portal.Boot` takes the loaded record as a parameter. A loaded record is not validated by the source; the lemmas that need sorted lists within 1..5 assume a valid record.
- The progress-bar percentage (script.js:249-275) is floating-point display only.
- Real time and concurrency: every `setTimeout` is an explicit event, and the flashing and playback schedules are collapsed into one "finished" event per replay.
- `Math.random`: the drawn table row, the drawn colours and the signal delay are parameters or left to the order of events.
- Drag geometry of jQuery UI: only the name-equality `accept` test and the placement counter are modelled.
- Focus movement between the code fields (script.js:545-554) only moves the cursor.
- The sanitising of number inputs by the browser is not modelled: field texts are taken as given.
- The rhythm game treats a last tap time of 0 as "no anchor", exactly as the source; a tap at clock reading 0 would therefore not anchor.
- Portal.Boot: the ready handler shows no screen itself; which screen the page opens on is decided by the page's markup, which is not part of this model. The model opens on the home screen.
- WordGame.UpperChar, WordGame.Upper, WordGame.Input: `toUpperCase` also maps other characters, and some of them to two or three characters (ß to SS, the ligatures ﬀ, ﬁ, ﬂ, ﬃ, ﬄ, ﬅ and ﬆ). The model maps only a..z, dotless i and long s. Those are all the characters whose upper-case form is a single letter A..Z. None of the other upper-case forms occurs in the five words, so whether "Check Word" succeeds is unaffected. The field text after typing does differ for such characters, and so does its length when a form is longer.
- Portal.FinishLevel: with no mode chosen the source files the level under an extra empty-string key that nothing reads; the model leaves the four lists unchanged instead of keeping that key.
- MemoryGame.Start: states the target length only for levels from 1 up, the levels the grid offers; below that the length is `level + 2` clipped at 0.
- CodeGame.Check: states the digit-by-digit reading only for fields of at most one character and a four-character code, which the input handler and the code table guarantee.
- ReactionGame.Next: counts a completion when it is scheduled; the one-second timer that then calls `completeLevel` is not a separate event.
- PatternGame.ParseInt: models `parseInt` on an optional minus sign and leading decimal digits only; leading white space, a plus sign and hexadecimal prefixes are not modelled, since a number field does not hold them.

=== FILE: code_game.dfy ===
/** The code-breaking game of logic mode (script.js startLogicGame): four
    one-digit fields, checked against the level's fixed four-digit code. */
module CodeGame {
  import opened Wrappers
  import opened Digits

  /** The target code of levels 1..5. */
  const Codes: seq<string> := ["1234", "2468", "1357", "9876", "5050"]

  /** The number of digit fields on the page. */
  const FieldCount: int := 4

  /** `code` is the level's target, `fields` the current text of the four fields. */
  datatype State = State(code: string, fields: seq<string>)

  /** A level outside 1..5 has no table entry; reading its hint throws. */
  datatype StartError = NoSuchLevel

  datatype Outcome = Cracked | Cleared

  /** Every field holds at most one character, as the input handler ensures. */
  ghost predicate FieldsWellFormed(s: State)
  {
    |s.fields| == FieldCount && forall i :: 0 <= i < |s.fields| ==> |s.fields[i]| <= 1
  }

  function Start(level: int): (r: Result<State, StartError>)
    ensures r.Success? <==> 1 <= level <= |Codes|
    ensures r.Success? ==> r.value.code == Codes[level - 1] && FieldsWellFormed(r.value)
    ensures r.Success? ==> forall i :: 0 <= i < FieldCount ==> r.value.fields[i] == ""
  {
    if 1 <= level <= |Codes| then Success(State(Codes[level - 1], ["", "", "", ""]))
    else Failure(NoSuchLevel)
  }

  /** The `input` handler: a value longer than one character keeps only its last. */
  function Typed(value: string): (r: string)
    ensures |r| <= 1
    ensures |value| <= 1 ==> r == value
    ensures |value| > 1 ==> r == [value[|value| - 1]]
  {
    if |value| > 1 then value[|value| - 1..] else value
  }

  /** Field `i` receives an input event carrying `value`. */
  function Input(s: State, i: int, value: string): (r: State)
    requires 0 <= i < |s.fields|
    ensures r.code == s.code && |r.fields| == |s.fields|
    ensures FieldsWellFormed(s) ==> FieldsWellFormed(r)
    ensures r.fields[i] == Typed(value)
    ensures forall j :: 0 <= j < |s.fields| && j != i ==> r.fields[j] == s.fields[j]
  {
    s.(fields := s.fields[i := Typed(value)])
  }

  /** The code as "Check Code" reads it: the fields in order, each blank field read as '0'. */
  function Entered(fields: seq<string>): (r: string)
    ensures (forall i :: 0 <= i < |fields| ==> |fields[i]| <= 1) ==>
              |r| == |fields|
              && forall i :: 0 <= i < |fields| ==>
                   r[i] == (if fields[i] == "" then '0' else fields[i][0])
  {
    if |fields| == 0 then ""
    else (if fields[0] == "" then "0" else fields[0]) + Entered(fields[1..])
  }

  /** The field text `f` reads as digit `d` of the code. */
  predicate FieldReads(f: string, d: char)
  {
    f == [d] || (f == "" && d == '0')
  }

  /** "Check Code": success iff the entered code equals the target; a miss
      clears every field. */
  function Check(s: State): (r: (State, Outcome))
    ensures r.1 == Cracked ==> r.0 == s
    ensures r.1 == Cleared ==> r.0.code == s.code && |r.0.fields| == |s.fields|
    ensures r.1 == Cleared ==> forall i :: 0 <= i < |r.0.fields| ==> r.0.fields[i] == ""
    ensures FieldsWellFormed(s) && |s.code| == FieldCount ==>
              (r.1 == Cracked <==> forall i :: 0 <= i < FieldCount ==> FieldReads(s.fields[i], s.code[i]))
  {
    if Entered(s.fields) == s.code then (s, Cracked)
    else
      assert FieldsWellFormed(s) && |s.code| == FieldCount ==>
               exists i :: 0 <= i < FieldCount && Entered(s.fields)[i] != s.code[i];
      (s.(fields := seq(|s.fields|, _ => "")), Cleared)
  }

  /** Every code in the table is exactly four decimal digits. */
  lemma CodesAreFourDigits()
    ensures forall l :: 0 <= l < |Codes| ==>
              |Codes[l]| == FieldCount && forall i :: 0 <= i < FieldCount ==> IsDigit(Codes[l][i])
  {
  }

  /** "1", blank, "3", "4" reads as 1034 and so misses level 1's 1234. */
  lemma BlankIsNotAWildcard()
    ensures Check(State("1234", ["1", "", "3", "4"])).1 == Cleared
  {
    assert !FieldReads("", '2');
  }

  /** "5", blank, "5", blank reads as 5050 and so cracks level 5. */
  lemma BlankReadsAsZero()
    ensures Check(State("5050", ["5", "", "5", ""])).1 == Cracked
  {
    assert Entered(["5", "", "5", ""]) == "5050";
  }
}

=== FILE: color_mix_game.dfy ===
/** Wildcard level 3, colour mixing (script.js startColorMixGame): show two or
    three paint colours and ask which of five offered colours they mix to. */
module ColorMixGame {

  datatype Colour = Red | Blue | Yellow | Green | Purple | Orange | Brown | Black

  /** One table row: the colours shown and the colour they mix to. */
  datatype Mix = Mix(ingredients: seq<Colour>, result: Colour)

  const Mixes: seq<Mix> := [
    Mix([Red, Blue], Purple),
    Mix([Red, Yellow], Orange),
    Mix([Blue, Yellow], Green),
    Mix([Red, Green], Brown),
    Mix([Blue, Red, Yellow], Black)
  ]

  /** The five option buttons, in page order. */
  const Options: seq<Colour> := [Purple, Orange, Green, Brown, Black]

  /** A game: the table row drawn at random. */
  datatype State = State(index: int)

  /** A click on an option: success iff it is the row's result. A miss only
      shakes the buttons; the row stays the same and the player may pick again. */
  function Pick(s: State, option: int): (ok: bool)
    requires 0 <= s.index < |Mixes|
    requires 0 <= option < |Options|
    // the buttons show distinct colours, so a correct pick is the only correct one
    ensures ok ==> forall other :: 0 <= other < |Options| && other != option ==>
                     Options[other] != Mixes[s.index].result
  {
    Options[option] == Mixes[s.index].result
  }

  /** Every row's result is offered, the buttons show distinct colours, and
      every row mixes two or three colours. */
  lemma EveryResultOfferedOnce()
    ensures forall i :: 0 <= i < |Mixes| ==> Mixes[i].result in Options
    ensures forall a, b :: 0 <= a < b < |Options| ==> Options[a] != Options[b]
    ensures forall i :: 0 <= i < |Mixes| ==> 2 <= |Mixes[i].ingredients| <= 3
  {
  }

  /** Whichever row is drawn, exactly one button completes the level. */
  lemma ExactlyOneWinningOption(s: State)
    requires 0 <= s.index < |Mixes|
    ensures exists option :: 0 <= option < |Options| && Pick(s, option)
    ensures forall a, b :: 0 <= a < |Options| && 0 <= b < |Options| && Pick(s, a) && Pick(s, b) ==> a == b
  {
    EveryResultOfferedOnce();
    var result := Mixes[s.index].result;
    var option :| 0 <= option < |Options| && Options[option] == result;
    assert Pick(s, option);
  }
}

=== FILE: digits.dfy ===
/** Decimal digit characters, shared by the games that read digits typed
    into a field. */
module Digits {

  predicate IsDigit(c: char)
  {
    '0' <= c <= '9'
  }

  /** The value of one decimal digit. */
  function DigitValue(c: char): (v: int)
    requires IsDigit(c)
    ensures 0 <= v <= 9
  {
    c as int - '0' as int
  }
}

=== FILE: memory_game.dfy ===
/** The sequence-recall game of memory mode (script.js startMemoryGame):
    the page flashes a random colour sequence, then the player repeats it. */
module MemoryGame {

  datatype Color = Red | Blue | Green | Yellow

  /** `target` is the sequence to repeat, `player` what has been pressed in
      this attempt, `showing` is set while the sequence is being flashed. */
  datatype State = State(target: seq<Color>, player: seq<Color>, showing: bool)

  /** What a step asks the page to do next. */
  datatype Effect =
    | NoEffect
    | Ignored             // a press while the sequence is showing
    | ScheduleRetry       // a wrong press: replay the sequence 500 ms later
    | ScheduleCompletion  // the whole sequence matched: complete the level 500 ms later

  /** The events the game reacts to; timers firing are events too. */
  datatype Event =
    | WatchClicked        // the "Watch Sequence" button
    | ReplayFinished      // the timer that switches off the last flash
    | RetryFired          // the timer scheduled by a wrong press
    | Press(c: Color)     // a click on one of the four coloured buttons

  /** The number of colours drawn for a level: the loop runs `level + 2` times. */
  function SequenceLength(level: int): nat
  {
    if level + 2 > 0 then level + 2 else 0
  }

  /** A fresh game; `draws` stands for the random colour picks. */
  function Start(level: int, draws: seq<Color>): (s: State)
    requires |draws| >= SequenceLength(level)
    ensures 1 <= level ==> |s.target| == level + 2
    ensures s.target <= draws
    ensures s.player == [] && !s.showing
  {
    State(draws[..SequenceLength(level)], [], false)
  }

  /** `showSequence`: start flashing the target and forget the attempt. */
  function Replay(s: State): (r: State)
    ensures r.showing && r.player == [] && r.target == s.target
  {
    s.(showing := true, player := [])
  }

  /** A click on colour `c`. The source compares only the newest press with
      the target entry at the same position; a press beyond the end of the
      target compares against `undefined` and so is always wrong. */
  function Press(s: State, c: Color): (r: (State, Effect))
    ensures r.0.target == s.target && r.0.showing == s.showing
    ensures s.showing ==> r == (s, Ignored)
    // an attempt that is a prefix of the target stays one (possibly the empty one)
    ensures s.player <= s.target ==> r.0.player <= r.0.target
    ensures r.1 == ScheduleRetry ==> r.0.player == []
    ensures r.1 in {NoEffect, ScheduleCompletion} ==> r.0.player == s.player + [c]
    // for an attempt that is still on track, the one-element check is the prefix check
    ensures !s.showing && s.player <= s.target ==>
              (r.1 == ScheduleRetry <==> !(s.player + [c] <= s.target))
    ensures !s.showing && s.player <= s.target ==>
              (r.1 == ScheduleCompletion <==> s.player + [c] == s.target)
  {
    if s.showing then (s, Ignored)
    else
      var p := s.player + [c];
      var k := |p| - 1;
      if k >= |s.target| || p[k] != s.target[k] then
        (s.(player := []), ScheduleRetry)
      else if |p| == |s.target| then
        assert s.player <= s.target ==> p == s.target by {
          assert forall i :: 0 <= i < k ==> p[i] == s.player[i];
        }
        (s.(player := p), ScheduleCompletion)
      else
        (s.(player := p), NoEffect)
  }

  /** One event. */
  function Step(s: State, e: Event): (r: (State, Effect))
    ensures r.0.target == s.target
    ensures s.player <= s.target ==> r.0.player <= r.0.target
    ensures e.Press? && s.showing ==> r == (s, Ignored)
    // presses go to `Press`; the button and the retry timer replay a fresh attempt
    ensures e.Press? ==> r == Press(s, e.c)
    ensures e.WatchClicked? || e.RetryFired? ==> r.0.showing && r.0.player == [] && r.1 == NoEffect
    // the end of the replay lets presses through again, keeping the attempt
    ensures e.ReplayFinished? ==> !r.0.showing && r.0.player == s.player && r.1 == NoEffect
  {
    match e
    case WatchClicked => (Replay(s), NoEffect)
    case RetryFired => (Replay(s), NoEffect)
    case ReplayFinished => (s.(showing := false), NoEffect)
    case Press(c) => Press(s, c)
  }

  /** A run of presses, with the effect of each. */
  function Presses(s: State, cs: seq<Color>): (r: (State, seq<Effect>))
    ensures |r.1| == |cs|
    ensures r.0.target == s.target && r.0.showing == s.showing
    decreases |cs|
  {
    if |cs| == 0 then (s, [])
    else
      var (s1, e1) := Press(s, cs[0]);
      var (s2, es) := Presses(s1, cs[1..]);
      (s2, [e1] + es)
  }

  /** Pressing the rest of the target from a correct partial attempt completes
      the level on the last press, and on no earlier press, with no retry. */
  lemma {:induction false} RepeatingTargetCompletes(s: State, k: nat)
    requires !s.showing
    requires k < |s.target|
    requires s.player == s.target[..k]
    ensures var (r, es) := Presses(s, s.target[k..]);
            r.player == r.target
            && es[|es| - 1] == ScheduleCompletion
            && forall i :: 0 <= i < |es| - 1 ==> es[i] == NoEffect
    decreases |s.target| - k
  {
    var (s1, e1) := Press(s, s.target[k]);
    assert s.target[..k] + [s.target[k]] == s.target[..k + 1];
    assert s.target[k..][1..] == s.target[k + 1..];
    if k + 1 == |s.target| {
      assert s.target[..k + 1] == s.target;
    } else {
      assert s.player + [s.target[k]] <= s.target;
      RepeatingTargetCompletes(s1, k + 1);
    }
  }

  /** From a fresh attempt, pressing the whole target completes the level. */
  lemma FreshAttemptCompletes(s: State)
    requires !s.showing && s.player == [] && |s.target| > 0
    ensures var (r, es) := Presses(s, s.target);
            es[|es| - 1] == ScheduleCompletion
            && forall i :: 0 <= i < |es| - 1 ==> es[i] == NoEffect
  {
    assert s.target[0..] == s.target;
    RepeatingTargetCompletes(s, 0);
  }

  /** Presses while the sequence is showing change nothing. */
  lemma {:induction false} PressesWhileShowingIgnored(s: State, cs: seq<Color>)
    requires s.showing
    ensures Presses(s, cs).0 == s
    ensures forall i :: 0 <= i < |cs| ==> Presses(s, cs).1[i] == Ignored
    decreases |cs|
  {
    if |cs| > 0 {
      PressesWhileShowingIgnored(s, cs[1..]);
    }
  }
}

=== FILE: pattern_game.dfy ===
/** Wildcard level 2, pattern completion (script.js startPatternCompleteGame):
    show four terms of a number sequence and ask for the fifth. */
module PatternGame {
  import opened Wrappers
  import opened Digits

  /** The five sequences, each with its first four terms shown. */
  const Patterns: seq<seq<int>> := [
    [1, 2, 4, 8],
    [2, 4, 6, 8],
    [1, 1, 2, 3],
    [10, 8, 6, 4],
    [1, 4, 9, 16]
  ]

  /** The expected next term of each sequence. */
  const Answers: seq<int> := [16, 10, 5, 2, 25]

  /** A game: the table row drawn at random. */
  datatype State = State(index: int)

  // ----------------------------------------------------------------------------
  // Reading the answer field as `parseInt` does
  // ----------------------------------------------------------------------------

  /** The longest prefix of `s` made of decimal digits. */
  function LeadingDigits(s: string): (r: string)
    ensures r <= s
    ensures forall i :: 0 <= i < |r| ==> IsDigit(r[i])
    ensures |r| < |s| ==> !IsDigit(s[|r|])
  {
    if |s| == 0 || !IsDigit(s[0]) then ""
    else [s[0]] + LeadingDigits(s[1..])
  }

  /** The value of a string of decimal digits. */
  function DigitsValue(ds: string): (n: nat)
    requires forall i :: 0 <= i < |ds| ==> IsDigit(ds[i])
  {
    if |ds| == 0 then 0
    else DigitsValue(ds[..|ds| - 1]) * 10 + DigitValue(ds[|ds| - 1])
  }

  /** `parseInt` on what a number field can hold: an optional minus sign and the
      leading run of digits; no digits at all is `NaN`, here `None`. */
  function ParseInt(s: string): (r: Option<int>)
    ensures r.Some? <==> (if |s| > 0 && s[0] == '-' then 1 < |s| && IsDigit(s[1]) else 0 < |s| && IsDigit(s[0]))
  {
    if |s| > 0 && s[0] == '-' then
      var ds := LeadingDigits(s[1..]);
      if |ds| == 0 then None else Some(-(DigitsValue(ds) as int))
    else
      var ds := LeadingDigits(s);
      if |ds| == 0 then None else Some(DigitsValue(ds))
  }

  /** The decimal text of a natural number. */
  function ShowNat(n: nat): (r: string)
    ensures |r| > 0
    ensures forall i :: 0 <= i < |r| ==> IsDigit(r[i])
  {
    if n < 10 then ['0' + n as char]
    else ShowNat(n / 10) + ['0' + (n % 10) as char]
  }

  /** The decimal text of an integer, with a minus sign when negative. */
  function Show(n: int): string
  {
    if n < 0 then "-" + ShowNat(-n) else ShowNat(n)
  }

  lemma {:induction false} ShowNatValue(n: nat)
    ensures DigitsValue(ShowNat(n)) == n
  {
    if n >= 10 {
      var r := ShowNat(n);
      assert r[..|r| - 1] == ShowNat(n / 10);
      ShowNatValue(n / 10);
    }
  }

  lemma {:induction false} LeadingDigitsOfDigits(s: string)
    requires forall i :: 0 <= i < |s| ==> IsDigit(s[i])
    ensures LeadingDigits(s) == s
  {
    if |s| > 0 {
      LeadingDigitsOfDigits(s[1..]);
    }
  }

  /** Reading back the decimal text of any integer gives that integer. */
  lemma ParseShow(n: int)
    ensures ParseInt(Show(n)) == Some(n)
  {
    if n < 0 {
      var digits := ShowNat(-n);
      var text := "-" + digits;
      assert Show(n) == text;
      assert text[1..] == digits;
      LeadingDigitsOfDigits(digits);
      ShowNatValue(-n);
      assert ParseInt(text) == Some(-(DigitsValue(digits) as int));
    } else {
      var digits := ShowNat(n);
      assert Show(n) == digits;
      assert |digits| > 0 && digits[0] != '-' by {
        assert IsDigit(digits[0]);
      }
      LeadingDigitsOfDigits(digits);
      ShowNatValue(n);
      assert ParseInt(digits) == Some(DigitsValue(digits));
    }
  }

  /** The digit run ends where the first non-digit starts. */
  lemma {:induction false} LeadingDigitsStop(ds: string, rest: string)
    requires forall i :: 0 <= i < |ds| ==> IsDigit(ds[i])
    requires |rest| == 0 || !IsDigit(rest[0])
    ensures LeadingDigits(ds + rest) == ds
  {
    if |ds| > 0 {
      LeadingDigitsStop(ds[1..], rest);
      assert (ds + rest)[1..] == ds[1..] + rest;
    } else {
      assert ds + rest == rest;
    }
  }

  /** `parseInt` reads the number at the start of the text and ignores
      whatever follows the first non-digit: "16.0", "16.5" and "1e1" read as
      16, 16 and 1. */
  lemma ParseStopsAtNonDigit(n: int, rest: string)
    requires |rest| == 0 || !IsDigit(rest[0])
    ensures ParseInt(Show(n) + rest) == Some(n)
  {
    if n < 0 {
      var digits := ShowNat(-n);
      var text := "-" + digits + rest;
      assert Show(n) + rest == text;
      assert text[1..] == digits + rest;
      LeadingDigitsStop(digits, rest);
      ShowNatValue(-n);
      assert ParseInt(text) == Some(-(DigitsValue(digits) as int));
    } else {
      var digits := ShowNat(n);
      var text := digits + rest;
      assert Show(n) + rest == text;
      assert text[0] == digits[0] && IsDigit(digits[0]);
      LeadingDigitsStop(digits, rest);
      ShowNatValue(n);
      assert ParseInt(text) == Some(DigitsValue(digits));
    }
  }

  /** A leading zero adds nothing to the value of a digit string. */
  lemma {:induction false} LeadingZeroValue(ds: string)
    requires forall i :: 0 <= i < |ds| ==> IsDigit(ds[i])
    ensures DigitsValue("0" + ds) == DigitsValue(ds)
    decreases |ds|
  {
    if |ds| > 0 {
      var init := ds[..|ds| - 1];
      LeadingZeroValue(init);
      assert ("0" + ds)[..|ds|] == "0" + init;
    }
  }

  /** Leading zeros are read as `parseInt` reads them: "05" is 5, and "0"
      followed by no digit is 0. */
  lemma LeadingZeroIgnored(t: string)
    ensures ParseInt("0" + t) == if |t| > 0 && IsDigit(t[0]) then ParseInt(t) else Some(0)
  {
    var ds := LeadingDigits(t);
    assert LeadingDigits("0" + t) == "0" + ds by {
      assert ("0" + t)[1..] == t;
    }
    LeadingZeroValue(ds);
    assert DigitsValue("0") == 0 by {
      assert "0"[..0] == "";
    }
  }

  /** `parseInt` stops at the first non-digit, so a fraction is cut off. */
  lemma FractionIsCutOff()
    ensures ParseInt("16.9") == Some(16)
    ensures ParseInt("") == None
  {
    assert LeadingDigits("16.9") == "16" by {
      assert LeadingDigits("6.9") == "6" by {
        assert LeadingDigits(".9") == "";
      }
    }
    assert DigitsValue("16") == 16 by {
      assert "16"[..1] == "1";
    }
  }

  // ----------------------------------------------------------------------------
  // Checking
  // ----------------------------------------------------------------------------

  /** "Check Answer": success iff the field reads as the row's expected term;
      a miss only empties the field, so the game state does not change. */
  function Check(s: State, field: string): (ok: bool)
    requires 0 <= s.index < |Answers|
    ensures ok <==> ParseInt(field) == Some(Answers[s.index])
  {
    match ParseInt(field)
    case Some(n) => n == Answers[s.index]
    case None => false
  }

  /** Typing the expected term passes; typing anything that reads differently fails. */
  lemma TypingTheAnswerPasses(s: State, n: int)
    requires 0 <= s.index < |Answers|
    ensures Check(s, Show(n)) <==> n == Answers[s.index]
  {
    ParseShow(n);
  }

  /** The n-th term (from 0) of the rule each row follows: powers of two, even
      numbers, Fibonacci numbers, counting down by two, perfect squares. */
  function Rule(row: int, n: nat): int
  {
    if row == 0 then Pow2(n)
    else if row == 1 then 2 * (n + 1)
    else if row == 2 then Fib(n + 1)
    else if row == 3 then 10 - 2 * n
    else (n + 1) * (n + 1)
  }

  function Pow2(n: nat): nat
  {
    if n == 0 then 1 else 2 * Pow2(n - 1)
  }

  /** Fibonacci numbers with Fib(1) == Fib(2) == 1. */
  function Fib(n: nat): nat
  {
    if n <= 1 then n else Fib(n - 1) + Fib(n - 2)
  }

  /** Each row shows the first four terms of its rule and expects the fifth. */
  lemma AnswersContinueTheirRule()
    ensures |Patterns| == |Answers| == 5
    ensures forall row, n :: 0 <= row < 5 && 0 <= n < 4 ==> |Patterns[row]| == 4 && Patterns[row][n] == Rule(row, n)
    ensures forall row :: 0 <= row < 5 ==> Answers[row] == Rule(row, 4)
  {
    assert Pow2(4) == 16 by {
      assert Pow2(2) == 4;
    }
    assert Fib(5) == 5 by {
      assert Fib(3) == 2;
    }
  }
}

=== FILE: portal.dfy ===
/** The portal around the games (script.js selectMode, startLevel,
    startWildcardGame, completeLevel): which game a mode and level start, and
    what finishing a level does to the progress record and the screen. */
module Portal {
  import opened Wrappers
  import opened Progress
  import CodeGame
  import ShapeGame

  /** The eight games: one per ordinary mode, five behind the wildcard levels. */
  datatype Game =
    | Simon          // memory mode
    | CodeBreaker    // logic mode
    | ShapeMatcher   // shapes mode
    | Reaction       // wildcard level 1
    | PatternComplete
    | ColorMix
    | WordScramble
    | RhythmMatch    // wildcard level 5

  /** The screen the card shows. `Celebrating` is the two seconds after a
      finished level before the grid comes back. */
  datatype Screen = Home | ModeSelection | LevelSelection | Playing(game: Game) | Celebrating | Won

  /** The screens the page's buttons lead to: `showHome`, `showModeSelection`
      and `showLevelSelection`. */
  datatype Navigation = ToHome | ToModes | ToGrid

  /** Why a level could not be started. */
  datatype StartError =
    | MissingTableEntry     // logic or shapes level outside 1..5: reading its table row throws
    | UnknownWildcardLevel  // wildcard level outside 1..5: the switch's default branch

  /** `mode` is `currentMode` (None while it is still the empty string),
      `level` is `currentLevel`, `progress` is `gameProgress`. */
  datatype Session = Session(mode: Option<Mode>, level: int, progress: Record, screen: Screen)

  /** The page after loading: the stored record (or the fresh one), no mode
      chosen yet, level 1. The ready handler shows no screen itself; the page
      is taken to open on the home screen that `showHome` returns to. */
  function Boot(saved: Record): (s: Session)
    ensures s.mode == None && s.level == 1 && s.progress == saved && s.screen == Home
  {
    Session(None, 1, saved, Home)
  }

  /** Showing a screen: only the screen changes; the mode, the level and the
      progress record stay as they are. */
  function Navigate(s: Session, to: Navigation): (r: Session)
    ensures r.mode == s.mode && r.level == s.level && r.progress == s.progress
    ensures r.screen == Home <==> to == ToHome
    ensures r.screen == ModeSelection <==> to == ToModes
    ensures r.screen == LevelSelection <==> to == ToGrid
  {
    match to
    case ToHome => s.(screen := Home)
    case ToModes => s.(screen := ModeSelection)
    case ToGrid => s.(screen := LevelSelection)
  }

  /** `selectMode`: remember the mode and show its level grid. */
  function SelectMode(s: Session, m: Mode): (r: Session)
    ensures r.mode == Some(m) && r.screen == LevelSelection
    ensures r.progress == s.progress && r.level == s.level
  {
    s.(mode := Some(m), screen := LevelSelection)
  }

  /** `startWildcardGame`: levels 1..5 each start a game of their own. */
  function WildcardGame(level: int): (r: Option<Game>)
    ensures r.Some? <==> 1 <= level <= LevelCount
    ensures r.Some? ==> r.value !in {Simon, CodeBreaker, ShapeMatcher}
    // the order the wildcard grid lists its games in
    ensures 1 <= level <= LevelCount ==>
              r == Some([Reaction, PatternComplete, ColorMix, WordScramble, RhythmMatch][level - 1])
  {
    if level == 1 then Some(Reaction)
    else if level == 2 then Some(PatternComplete)
    else if level == 3 then Some(ColorMix)
    else if level == 4 then Some(WordScramble)
    else if level == 5 then Some(RhythmMatch)
    else None
  }

  /** The game a mode's level starts. Memory mode accepts any level (it only
      sets the sequence length); logic and shapes read their level's table
      row, which exists for levels 1..5 only; a missing row makes the game's
      start throw. */
  function GameFor(m: Mode, level: int): (r: Result<Game, StartError>)
    ensures m == Memory ==> r == Success(Simon)
    ensures m == Logic ==> (r.Success? <==> CodeGame.Start(level).Success?)
    ensures m == Shapes ==> (r.Success? <==> ShapeGame.Start(level).Success?)
    ensures m != Memory ==> (r.Success? <==> 1 <= level <= LevelCount)
    ensures r.Failure? ==> (r.error == UnknownWildcardLevel <==> m == Wildcard)
    ensures m == Logic && r.Success? ==> r.value == CodeBreaker
    ensures m == Shapes && r.Success? ==> r.value == ShapeMatcher
    ensures m == Wildcard && r.Success? ==> Some(r.value) == WildcardGame(level)
  {
    match m
    case Memory => Success(Simon)
    case Logic => if 1 <= level <= |CodeGame.Codes| then Success(CodeBreaker) else Failure(MissingTableEntry)
    case Shapes => if 1 <= level <= |ShapeGame.Layouts| then Success(ShapeMatcher) else Failure(MissingTableEntry)
    case Wildcard =>
      match WildcardGame(level)
      case Some(g) => Success(g)
      case None => Failure(UnknownWildcardLevel)
  }

  /** `startLevel`: record the level, then start the mode's game. It does not
      consult the unlock rule: only the grid keeps locked levels out. A
      missing table row or an unset mode sends the player back to the mode
      menu, an unknown wildcard level back to the grid. */
  function StartLevel(s: Session, level: int): (r: Session)
    ensures r.level == level && r.mode == s.mode && r.progress == s.progress
    ensures r.screen.Playing? <==> s.mode.Some? && GameFor(s.mode.value, level).Success?
    ensures r.screen.Playing? ==> r.screen.game == GameFor(s.mode.value, level).value
    ensures r.screen == LevelSelection <==> s.mode == Some(Wildcard) && !(1 <= level <= LevelCount)
  {
    var next := s.(level := level);
    match s.mode
    case None => next.(screen := ModeSelection)
    case Some(m) =>
      match GameFor(m, level)
      case Success(g) => next.(screen := Playing(g))
      case Failure(MissingTableEntry) => next.(screen := ModeSelection)
      case Failure(UnknownWildcardLevel) => next.(screen := LevelSelection)
  }

  /** `completeLevel`: add the current level to the current mode's list, then
      show the win screen if every list holds five levels, else celebrate.
      The win test runs on every call, also when the level was already done.
      With no mode set the source files the level under an extra key that no
      other code reads, so the four lists are unchanged. */
  function FinishLevel(s: Session): (r: Session)
    ensures r.mode == s.mode && r.level == s.level
    ensures s.mode.Some? ==> r.progress == Complete(s.progress, s.mode.value, s.level)
    ensures s.mode.None? ==> r.progress == s.progress
    ensures r.screen == Won <==> AllComplete(r.progress)
    ensures r.screen != Won ==> r.screen == Celebrating
  {
    var progress := if s.mode.Some? then Complete(s.progress, s.mode.value, s.level) else s.progress;
    s.(progress := progress, screen := if AllComplete(progress) then Won else Celebrating)
  }

  /** The timer two seconds after a celebration: the grid of the same mode
      comes back, drawn from the updated record. */
  function CelebrationOver(s: Session): (r: Session)
    ensures r.mode == s.mode && r.level == s.level && r.progress == s.progress
    ensures r.screen == LevelSelection
  {
    Navigate(s, ToGrid)
  }

  /** Going from screen to screen: the whole walk is the same as going
      straight to its last screen. */
  function Walk(s: Session, route: seq<Navigation>): Session
    decreases |route|
  {
    if |route| == 0 then s else Walk(Navigate(s, route[0]), route[1..])
  }

  // ----------------------------------------------------------------------------
  // Properties of the dispatch
  // ----------------------------------------------------------------------------

  /** The five wildcard levels start five different games. */
  lemma WildcardGamesDistinct(a: int, b: int)
    requires 1 <= a <= LevelCount && 1 <= b <= LevelCount
    ensures WildcardGame(a) == WildcardGame(b) <==> a == b
  {
  }

  /** A level the grid shows locked still starts when `startLevel` is called
      with it: the unlock rule lives in the grid alone. */
  lemma LockedLevelStillStarts(s: Session, level: int)
    requires s.mode.Some? && 1 <= level <= LevelCount
    requires !Unlocked(s.progress.Completed(s.mode.value), level)
    ensures StartLevel(s, level).screen.Playing?
  {
  }

  /** On a valid record, finishing a level of 1..5 keeps the record valid,
      and the win screen shows iff every level of every mode is done. */
  lemma FinishWinsIffEverythingDone(s: Session)
    requires Valid(s.progress) && 1 <= s.level <= LevelCount
    ensures Valid(FinishLevel(s).progress)
    ensures FinishLevel(s).screen == Won <==>
              forall m: Mode, v :: 1 <= v <= LevelCount ==> v in FinishLevel(s).progress.Completed(m)
  {
    if s.mode.Some? {
      CompletePreservesValid(s.progress, s.mode.value, s.level);
    }
    AllCompleteMeansEveryLevel(FinishLevel(s).progress);
  }

  /** Navigating never touches the mode, the level or the record: any walk
      through the screens ends where a single step to its last screen would. */
  lemma {:induction false} WalkEndsOnLastScreen(s: Session, route: seq<Navigation>)
    ensures Walk(s, route) == if |route| == 0 then s else Navigate(s, route[|route| - 1])
    decreases |route|
  {
    if |route| > 1 {
      WalkEndsOnLastScreen(Navigate(s, route[0]), route[1..]);
      assert route[1..][|route[1..]| - 1] == route[|route| - 1];
    }
  }

  /** Winning the next open level of a mode whose levels 1..k are done, then
      the celebration timer: the grid comes back with levels 1..k+1 done and
      button `i` enabled iff `i` is at most k+2. */
  lemma CelebrationReopensGrid(s: Session, m: Mode, k: nat, i: int)
    requires s.mode == Some(m) && s.progress.Completed(m) == FirstLevels(k) && k < LevelCount
    requires 1 <= i <= LevelCount
    ensures var r := FinishLevel(StartLevel(s, k + 1));
            r.screen == Celebrating ==>
              CelebrationOver(r).screen == LevelSelection &&
              CelebrationOver(r).progress.Completed(m) == FirstLevels(k + 1) &&
              (Unlocked(CelebrationOver(r).progress.Completed(m), i) <==> i <= k + 2)
  {
    WinNext(s, m, k);
    UnlockedFirstLevels(k + 1, i);
  }

  /** The next level of a mode whose levels 1..k are done, when the mode has
      a game for it: the grid shows it open, it starts, and winning it makes
      the list 1..k+1 and changes nothing else. */
  lemma WinNext(s: Session, m: Mode, k: nat)
    requires s.mode == Some(m) && s.progress.Completed(m) == FirstLevels(k)
    requires m == Memory || k < LevelCount
    ensures Unlocked(s.progress.Completed(m), k + 1)
    ensures StartLevel(s, k + 1).screen.Playing?
    ensures FinishLevel(StartLevel(s, k + 1)).mode == Some(m)
    ensures FinishLevel(StartLevel(s, k + 1)).progress == s.progress.With(m, FirstLevels(k + 1))
  {
    UnlockedFirstLevels(k, k + 1);
    assert GameFor(m, k + 1).Success?;
    var started := StartLevel(s, k + 1);
    assert started.mode == Some(m) && started.level == k + 1 && started.progress == s.progress;
    CompleteNext(s.progress, m, k);
  }

  /** Completing level k+1 of a list 1..k gives 1..k+1. */
  lemma CompleteNext(p: Record, m: Mode, k: nat)
    requires p.Completed(m) == FirstLevels(k)
    ensures Complete(p, m, k + 1) == p.With(m, FirstLevels(k + 1))
  {
    UnlockedFirstLevels(k, k + 1);
    CompleteOpenLevel(k, k + 1);
    assert k + 1 !in FirstLevels(k);
  }

  // ----------------------------------------------------------------------------
  // Playing a mode through
  // ----------------------------------------------------------------------------

  /** Whether `startLevel` gets a game running: a mode is set, and it is
      memory or the level is one of 1..5. */
  predicate Launches(mode: Option<Mode>, level: int)
  {
    mode.Some? && (mode.value == Memory || 1 <= level <= LevelCount)
  }

  /** Start a level and, when its game runs, win it: `completeLevel` is only
      reached from a running game. Written with `Launches` and the screens of
      the failed starts; `PlayIsStartThenFinish` shows it is `startLevel`
      followed by `completeLevel` when a game runs. */
  function Play(s: Session, level: int): Session
  {
    if Launches(s.mode, level) then FinishLevel(s.(level := level))
    else s.(level := level, screen := if s.mode == Some(Wildcard) then LevelSelection else ModeSelection)
  }

  /** `Play` is `startLevel`, then `completeLevel` exactly when a game started. */
  lemma PlayIsStartThenFinish(s: Session, level: int)
    ensures StartLevel(s, level).screen.Playing? <==> Launches(s.mode, level)
    ensures Play(s, level) == if StartLevel(s, level).screen.Playing?
                              then FinishLevel(StartLevel(s, level)) else StartLevel(s, level)
  {
  }

  /** Play levels 1..n of the current mode, in order. */
  function PlayUpTo(s: Session, n: nat): Session
    decreases n
  {
    if n == 0 then s else Play(PlayUpTo(s, n - 1), n)
  }

  /** How many of levels 1..n a mode wins when they are played in order:
      memory starts a game at any level, the other modes at levels 1..5 only. */
  function Reached(m: Mode, n: nat): nat
  {
    if m == Memory || n <= LevelCount then n else LevelCount
  }

  /** Playing the next level of a mode whose levels 1..Reached(k) are done.
      A level with a game is unlocked and winning it adds it, nothing else
      changed; past the table of logic, shapes and wildcard no game starts
      and the record stays as it is. */
  lemma PlayNext(s: Session, m: Mode, k: nat, base: Record)
    requires s.mode == Some(m) && s.progress == base.With(m, FirstLevels(Reached(m, k)))
    ensures Play(s, k + 1).mode == Some(m)
    ensures Play(s, k + 1).progress == base.With(m, FirstLevels(Reached(m, k + 1)))
    ensures Reached(m, k + 1) == k + 1 ==>
              Unlocked(s.progress.Completed(m), k + 1) && StartLevel(s, k + 1).screen.Playing?
    ensures Reached(m, k + 1) < k + 1 ==>
              Play(s, k + 1) == StartLevel(s, k + 1) && !Play(s, k + 1).screen.Playing?
  {
    PlayNextRecord(s, m, k + 1, base);
    PlayIsStartThenFinish(s, k + 1);
    if Reached(m, k + 1) == k + 1 {
      UnlockedFirstLevels(k, k + 1);
    }
  }

  /** The record part of `PlayNext`, for level n = k + 1. */
  lemma PlayNextRecord(s: Session, m: Mode, n: nat, base: Record)
    requires 0 < n
    requires s.mode == Some(m) && s.progress == base.With(m, FirstLevels(Reached(m, n - 1)))
    ensures Play(s, n).mode == Some(m)
    ensures Play(s, n).progress == base.With(m, FirstLevels(Reached(m, n)))
  {
    if m == Memory || n <= LevelCount {
      assert s.progress.Completed(m) == FirstLevels(n - 1);
      CompleteNext(s.progress, m, n - 1);
      WithWith(base, m, FirstLevels(n - 1), FirstLevels(n));
    }
  }

  /** The screen after playing level k+1 depends on the mode alone: the win
      test's verdict when the mode has a game for it, else the screen the
      failed start shows. */
  lemma PlayScreen(s: Session, m: Mode, k: nat)
    requires s.mode == Some(m)
    ensures Reached(m, k + 1) == k + 1 ==> (Play(s, k + 1).screen == Won <==> AllComplete(Play(s, k + 1).progress))
    ensures Reached(m, k + 1) < k + 1 ==>
              Play(s, k + 1).screen == (if m == Wildcard then LevelSelection else ModeSelection)
  {
  }

  /** Starting from an empty list, playing levels 1..n in order leaves
      exactly the levels the mode has games for among 1..n completed, every
      other mode untouched. */
  lemma {:induction false} PlayUpToCompletes(s: Session, m: Mode, n: nat)
    requires s.mode == Some(m) && s.progress.Completed(m) == []
    ensures PlayUpTo(s, n).mode == Some(m)
    ensures PlayUpTo(s, n).progress == s.progress.With(m, FirstLevels(Reached(m, n)))
    decreases n
  {
    if n == 0 {
      WithCompleted(s.progress, m);
    } else {
      PlayUpToCompletes(s, m, n - 1);
      PlayUpToStep(s, m, n);
    }
  }

  /** Playing levels 1..n in order only ever starts a level the grid shows
      unlocked. */
  lemma PlayUpToStartsOpenLevels(s: Session, m: Mode, n: nat)
    requires s.mode == Some(m) && s.progress.Completed(m) == []
    requires 0 < n && Reached(m, n) == n
    ensures Unlocked(PlayUpTo(s, n - 1).progress.Completed(m), n)
  {
    PlayUpToCompletes(s, m, n - 1);
    assert PlayUpTo(s, n - 1).progress.Completed(m) == FirstLevels(n - 1);
    UnlockedFirstLevels(n - 1, n);
  }

  /** One step of the induction above: what holds after n - 1 levels carries
      over to n. */
  lemma PlayUpToStep(s: Session, m: Mode, n: nat)
    requires 0 < n
    requires PlayUpTo(s, n - 1).mode == Some(m)
    requires PlayUpTo(s, n - 1).progress == s.progress.With(m, FirstLevels(Reached(m, n - 1)))
    ensures PlayUpTo(s, n).mode == Some(m)
    ensures PlayUpTo(s, n).progress == s.progress.With(m, FirstLevels(Reached(m, n)))
  {
    PlayNextRecord(PlayUpTo(s, n - 1), m, n, s.progress);
  }

  /** Choosing a mode with nothing done and playing its levels 1..n in order.
      After a last level that has a game the win test looks at the whole
      record; a last level past the table sends logic and shapes back to the
      mode menu and wildcard back to the grid. */
  lemma PlayThrough(s: Session, m: Mode, n: nat)
    requires s.progress.Completed(m) == []
    ensures PlayUpTo(SelectMode(s, m), n).progress == s.progress.With(m, FirstLevels(Reached(m, n)))
    ensures 0 < n && Reached(m, n) == n ==> (PlayUpTo(SelectMode(s, m), n).screen == Won <==>
                                             AllComplete(PlayUpTo(SelectMode(s, m), n).progress))
    ensures Reached(m, n) < n ==>
              PlayUpTo(SelectMode(s, m), n).screen == (if m == Wildcard then LevelSelection else ModeSelection)
    ensures n == 0 ==> PlayUpTo(SelectMode(s, m), n).screen == LevelSelection
  {
    PlayUpToCompletes(SelectMode(s, m), m, n);
    if n > 0 {
      var prev := PlayUpTo(SelectMode(s, m), n - 1);
      PlayUpToCompletes(SelectMode(s, m), m, n - 1);
      assert PlayUpTo(SelectMode(s, m), n) == Play(prev, n);
      PlayScreen(prev, m, n - 1);
    }
  }

  /** From a record with nothing completed (the fresh one), choosing each
      mode in turn and playing its levels 1..n in order ends on the win
      screen exactly when n is the full five levels. */
  lemma PlayingEverythingWins(saved: Record, n: nat)
    requires forall m: Mode :: saved.Completed(m) == []
    ensures PlayUpTo(SelectMode(PlayUpTo(SelectMode(PlayUpTo(SelectMode(PlayUpTo(SelectMode(
              Boot(saved), Memory), n), Logic), n), Shapes), n), Wildcard), n).screen == Won
            <==> n == LevelCount
  {
    var all := FirstLevels(n);
    var capped := FirstLevels(Reached(Logic, n));
    var s0 := Boot(saved);
    assert saved.Completed(Memory) == [];
    var s1 := PlayUpTo(SelectMode(s0, Memory), n);
    PlayThrough(s0, Memory, n);
    assert s1.progress == Record(all, saved.logic, saved.shapes, saved.wildcard);
    assert saved.Completed(Logic) == [];
    var s2 := PlayUpTo(SelectMode(s1, Logic), n);
    PlayThrough(s1, Logic, n);
    assert s2.progress == Record(all, capped, saved.shapes, saved.wildcard);
    assert saved.Completed(Shapes) == [];
    var s3 := PlayUpTo(SelectMode(s2, Shapes), n);
    PlayThrough(s2, Shapes, n);
    assert s3.progress == Record(all, capped, capped, saved.wildcard);
    assert saved.Completed(Wildcard) == [];
    var s4 := PlayUpTo(SelectMode(s3, Wildcard), n);
    PlayThrough(s3, Wildcard, n);
    assert s4.progress == Record(all, capped, capped, capped);
  }

  /** A new player, who starts from the empty record the page declares and
      falls back to, wins by playing levels 1..5 of every mode in order, and
      by no shorter or longer run. */
  lemma NewPlayerWins(n: nat)
    ensures PlayUpTo(SelectMode(PlayUpTo(SelectMode(PlayUpTo(SelectMode(PlayUpTo(SelectMode(
              Boot(Fresh), Memory), n), Logic), n), Shapes), n), Wildcard), n).screen == Won
            <==> n == LevelCount
  {
    PlayingEverythingWins(Fresh, n);
  }
}

=== FILE: progress.dfy ===
/** Per-mode progress of the puzzle portal: the completed-level lists, the
    unlock rule of the level grid, marking a level complete, and the win
    condition over all four modes. */
module Progress {

  /** The four top-level game categories. */
  datatype Mode = Memory | Logic | Shapes | Wildcard

  /** Every mode has this many levels, numbered from 1. */
  const LevelCount: int := 5

  /** The progress record: for each mode, the list of completed level numbers. */
  datatype Record = Record(memory: seq<int>, logic: seq<int>, shapes: seq<int>, wildcard: seq<int>)
  {
    /** The completed-level list of mode `m`. */
    function Completed(m: Mode): seq<int>
    {
      match m
      case Memory => memory
      case Logic => logic
      case Shapes => shapes
      case Wildcard => wildcard
    }

    /** This record with the list of mode `m` replaced by `s`. */
    function With(m: Mode, s: seq<int>): (r: Record)
      ensures r.Completed(m) == s
      ensures forall m': Mode :: m' != m ==> r.Completed(m') == Completed(m')
    {
      match m
      case Memory => this.(memory := s)
      case Logic => this.(logic := s)
      case Shapes => this.(shapes := s)
      case Wildcard => this.(wildcard := s)
    }
  }

  /** Replacing a list twice keeps only the second replacement. */
  lemma WithWith(p: Record, m: Mode, a: seq<int>, b: seq<int>)
    ensures p.With(m, a).With(m, b) == p.With(m, b)
  {
  }

  /** Putting a mode's own list back changes nothing. */
  lemma WithCompleted(p: Record, m: Mode)
    ensures p.With(m, p.Completed(m)) == p
  {
  }

  /** The record the page declares, and falls back to when the stored one
      cannot be read: every list is empty. */
  const Fresh: Record := Record([], [], [], [])

  ghost predicate Nondecreasing(s: seq<int>)
  {
    forall i, j :: 0 <= i < j < |s| ==> s[i] <= s[j]
  }

  /** Sorted and free of duplicates. */
  ghost predicate StrictlyIncreasing(s: seq<int>)
  {
    forall i, j :: 0 <= i < j < |s| ==> s[i] < s[j]
  }

  ghost predicate WithinLevels(s: seq<int>)
  {
    forall i :: 0 <= i < |s| ==> 1 <= s[i] <= LevelCount
  }

  /** The invariant of a completed-level list: sorted, no duplicates, levels 1..5 only. */
  ghost predicate WellFormed(s: seq<int>)
  {
    StrictlyIncreasing(s) && WithinLevels(s)
  }

  ghost predicate Valid(p: Record)
  {
    forall m: Mode :: WellFormed(p.Completed(m))
  }

  /** The levels 1..k in order: the list of a mode whose first k levels are done. */
  function FirstLevels(k: nat): (r: seq<int>)
    ensures |r| == k
    ensures forall i :: 0 <= i < k ==> r[i] == i + 1
  {
    seq(k, i => i + 1)
  }

  // ----------------------------------------------------------------------------
  // Sorting, as the numeric comparator `(a, b) => a - b` orders the list
  // ----------------------------------------------------------------------------

  /** Inserts `x` into a sorted list, before the first element not below it. */
  function SortedInsert(s: seq<int>, x: int): (r: seq<int>)
    requires Nondecreasing(s)
    ensures Nondecreasing(r)
    ensures multiset(r) == multiset(s) + multiset{x}
  {
    if |s| == 0 then [x]
    else if x <= s[0] then
      ConsSorted(x, s);
      [x] + s
    else
      var tail := SortedInsert(s[1..], x);
      InsertBehindHead(s, x, tail);
      [s[0]] + tail
  }

  /** The head of a sorted list is no greater than anything in it. */
  lemma HeadIsLeast(s: seq<int>, v: int)
    requires Nondecreasing(s) && v in multiset(s)
    ensures s[0] <= v
  {
    assert v in s;
    var i :| 0 <= i < |s| && s[i] == v;
    if i > 0 {
      assert s[0] <= s[i];
    }
  }

  /** A value no greater than every element of a sorted list can go in front of it. */
  lemma ConsSorted(x: int, s: seq<int>)
    requires Nondecreasing(s)
    requires forall k :: 0 <= k < |s| ==> x <= s[k]
    ensures Nondecreasing([x] + s)
    ensures multiset([x] + s) == multiset(s) + multiset{x}
  {
    var r := [x] + s;
    forall i, j | 0 <= i < j < |r|
      ensures r[i] <= r[j]
    {
      assert r[j] == s[j - 1];
      if i > 0 {
        assert r[i] == s[i - 1];
      }
    }
  }

  /** The step of `SortedInsert` that keeps the head and inserts behind it. */
  lemma InsertBehindHead(s: seq<int>, x: int, tail: seq<int>)
    requires Nondecreasing(s) && |s| > 0 && s[0] < x
    requires Nondecreasing(tail) && multiset(tail) == multiset(s[1..]) + multiset{x}
    ensures Nondecreasing([s[0]] + tail)
    ensures multiset([s[0]] + tail) == multiset(s) + multiset{x}
  {
    assert s == [s[0]] + s[1..];
    forall k | 0 <= k < |tail|
      ensures s[0] <= tail[k]
    {
      assert tail[k] in multiset(tail);
      if tail[k] != x {
        HeadIsLeast(s, tail[k]);
      }
    }
    ConsSorted(s[0], tail);
  }

  /** One step of `Sort`: insert the last element into the sorted rest. */
  function InsertLast(s: seq<int>): (r: seq<int>)
    requires |s| > 0
    ensures Nondecreasing(r)
    decreases |s|, 0
  {
    SortedInsert(Sort(s[..|s| - 1]), s[|s| - 1])
  }

  /** Sorts a list into nondecreasing order, inserting elements one by one.
      That it keeps exactly the input's elements is `SortPermutes`. */
  function Sort(s: seq<int>): (r: seq<int>)
    ensures Nondecreasing(r)
    decreases |s|, 1
  {
    if |s| == 0 then [] else InsertLast(s)
  }

  /** `Sort` rearranges its input: the result holds exactly the same elements,
      each as often. */
  lemma {:induction false} SortPermutes(s: seq<int>)
    ensures multiset(Sort(s)) == multiset(s)
    decreases |s|
  {
    if |s| > 0 {
      var init := s[..|s| - 1];
      SortPermutes(init);
      assert s == init + [s[|s| - 1]];
    }
  }

  /** Any two sorted arrangements of the same elements are equal, so the
      model's `Sort` yields exactly the array any correct sort yields. */
  lemma {:induction false} SortedPermutationUnique(a: seq<int>, b: seq<int>)
    requires Nondecreasing(a) && Nondecreasing(b)
    requires multiset(a) == multiset(b)
    ensures a == b
  {
    if |a| == 0 {
      assert |multiset(b)| == 0;
    } else {
      assert |b| == |multiset(b)| == |multiset(a)| == |a|;
      assert a[0] in multiset(b);
      assert b[0] in multiset(a);
      assert a[0] == b[0] by {
        var i :| 0 <= i < |b| && b[i] == a[0];
        var j :| 0 <= j < |a| && a[j] == b[0];
        assert b[0] <= b[i];
        assert a[0] <= a[j];
      }
      assert a == [a[0]] + a[1..];
      assert b == [b[0]] + b[1..];
      assert multiset(a) == multiset{a[0]} + multiset(a[1..]);
      assert multiset(b) == multiset{b[0]} + multiset(b[1..]);
      assert multiset(a[1..]) == multiset(a) - multiset{a[0]};
      assert multiset(b[1..]) == multiset(b) - multiset{b[0]};
      SortedPermutationUnique(a[1..], b[1..]);
    }
  }

  lemma SortOfSorted(s: seq<int>)
    requires Nondecreasing(s)
    ensures Sort(s) == s
  {
    SortPermutes(s);
    SortedPermutationUnique(Sort(s), s);
  }

  /** Inserting a new value into a duplicate-free sorted list keeps it duplicate-free. */
  lemma {:induction false} SortedInsertStrict(s: seq<int>, x: int)
    requires StrictlyIncreasing(s)
    requires x !in s
    ensures StrictlyIncreasing(SortedInsert(s, x))
  {
    if |s| > 0 && x > s[0] {
      SortedInsertStrict(s[1..], x);
      var tail := SortedInsert(s[1..], x);
      assert s == [s[0]] + s[1..];
      forall k | 0 <= k < |tail|
        ensures s[0] < tail[k]
      {
        assert tail[k] in multiset(tail);
        if tail[k] != x {
          assert tail[k] in multiset(s[1..]);
        }
      }
    }
  }

  // ----------------------------------------------------------------------------
  // Marking a level complete (script.js completeLevel)
  // ----------------------------------------------------------------------------

  /** A level already in the list leaves it untouched; otherwise the level is
      appended and the whole list sorted numerically (`CompleteListInserts`). */
  function CompleteList(s: seq<int>, level: int): (r: seq<int>)
    ensures level in r
    ensures level in s ==> r == s
  {
    if level in s then s
    else
      SortPermutes(s + [level]);
      var r := Sort(s + [level]);
      assert level in multiset(r);
      r
  }

  /** A level not yet in the list is added: the list comes out sorted and
      gains exactly that one level. */
  lemma CompleteListInserts(s: seq<int>, level: int)
    ensures level !in s ==> Nondecreasing(CompleteList(s, level))
    ensures level !in s ==> multiset(CompleteList(s, level)) == multiset(s) + multiset{level}
  {
    SortPermutes(s + [level]);
  }

  /** `completeLevel` for the current mode and level. */
  function Complete(p: Record, m: Mode, level: int): (r: Record)
    ensures level in r.Completed(m)
    ensures forall m': Mode :: m' != m ==> r.Completed(m') == p.Completed(m')
  {
    p.With(m, CompleteList(p.Completed(m), level))
  }

  /** Completing a level adds that level to the current mode's list if it
      was missing, and nothing else. */
  lemma CompleteAddsOnlyLevel(p: Record, m: Mode, level: int)
    ensures multiset(Complete(p, m, level).Completed(m))
         == multiset(p.Completed(m)) + (if level in p.Completed(m) then multiset{} else multiset{level})
  {
    CompleteListInserts(p.Completed(m), level);
  }

  /** Completing a level keeps the list sorted and duplicate-free, and within 1..5
      when the level is. */
  lemma CompleteListWellFormed(s: seq<int>, level: int)
    requires StrictlyIncreasing(s)
    ensures StrictlyIncreasing(CompleteList(s, level))
    ensures WithinLevels(s) && 1 <= level <= LevelCount ==> WellFormed(CompleteList(s, level))
  {
    if level !in s {
      assert (s + [level])[..|s|] == s;
      SortOfSorted(s);
      assert Sort(s + [level]) == SortedInsert(s, level);
      SortedInsertStrict(s, level);
      CompleteListInserts(s, level);
      var r := CompleteList(s, level);
      if WithinLevels(s) && 1 <= level <= LevelCount {
        forall k | 0 <= k < |r|
          ensures 1 <= r[k] <= LevelCount
        {
          assert r[k] in multiset(r);
          if r[k] != level {
            assert r[k] in multiset(s);
          }
        }
      }
    }
  }

  lemma CompletePreservesValid(p: Record, m: Mode, level: int)
    requires Valid(p)
    requires 1 <= level <= LevelCount
    ensures Valid(Complete(p, m, level))
  {
    CompleteListWellFormed(p.Completed(m), level);
  }

  /** Completing the same level twice is the same as completing it once. */
  lemma CompleteIdempotent(p: Record, m: Mode, level: int)
    ensures Complete(Complete(p, m, level), m, level) == Complete(p, m, level)
  {
  }

  // ----------------------------------------------------------------------------
  // Unlocking (script.js generateLevelGrid)
  // ----------------------------------------------------------------------------

  /** Level `i` can be started iff it is level 1 or the level before it is completed. */
  predicate Unlocked(s: seq<int>, i: int)
  {
    i == 1 || i - 1 in s
  }

  /** One button of the level grid. */
  datatype LevelButton = LevelButton(level: int, completed: bool, enabled: bool)

  /** Builds the five buttons of the level grid from a mode's completed list. */
  method LevelGrid(s: seq<int>) returns (grid: seq<LevelButton>)
    ensures |grid| == LevelCount
    ensures forall k :: 0 <= k < |grid| ==> grid[k].level == k + 1
    ensures forall k :: 0 <= k < |grid| ==> (grid[k].completed <==> k + 1 in s)
    ensures forall k :: 0 <= k < |grid| ==> (grid[k].enabled <==> Unlocked(s, k + 1))
  {
    grid := [];
    var i := 1;
    while i <= LevelCount
      invariant 1 <= i <= LevelCount + 1
      invariant |grid| == i - 1
      invariant forall k :: 0 <= k < |grid| ==> grid[k].level == k + 1
      invariant forall k :: 0 <= k < |grid| ==> (grid[k].completed <==> k + 1 in s)
      invariant forall k :: 0 <= k < |grid| ==> (grid[k].enabled <==> Unlocked(s, k + 1))
    {
      var completed := i in s;
      var enabled := i == 1 || i - 1 in s;
      grid := grid + [LevelButton(i, completed, enabled)];
      i := i + 1;
    }
  }

  /** Completing a level never locks a level that was open. */
  lemma CompleteKeepsUnlocked(s: seq<int>, level: int, i: int)
    requires Unlocked(s, i)
    ensures Unlocked(CompleteList(s, level), i)
  {
    if i != 1 && level !in s {
      CompleteListInserts(s, level);
      assert i - 1 in multiset(s);
      assert i - 1 in multiset(CompleteList(s, level));
    }
  }

  /** When the first k levels are done, exactly levels 1..k+1 are open. */
  lemma UnlockedFirstLevels(k: nat, i: int)
    requires 1 <= i
    ensures Unlocked(FirstLevels(k), i) <==> i <= k + 1
  {
    if 2 <= i <= k + 1 {
      assert FirstLevels(k)[i - 2] == i - 1;
    }
  }

  /** Playing only levels the grid enables keeps each list of the form 1..k:
      completing an open level either changes nothing or extends it by k+1. */
  lemma CompleteOpenLevel(k: nat, level: int)
    requires Unlocked(FirstLevels(k), level)
    requires 1 <= level
    ensures CompleteList(FirstLevels(k), level) == FirstLevels(k)
         || CompleteList(FirstLevels(k), level) == FirstLevels(k + 1)
  {
    var s := FirstLevels(k);
    UnlockedFirstLevels(k, level);
    if level <= k {
      assert s[level - 1] == level;
    } else {
      assert level == k + 1;
      assert level !in s;
      assert s + [level] == FirstLevels(k + 1);
      SortOfSorted(FirstLevels(k + 1));
    }
  }

  // ----------------------------------------------------------------------------
  // Winning the whole portal
  // ----------------------------------------------------------------------------

  /** The source's win test: all four lists hold five entries. */
  predicate AllComplete(p: Record)
  {
    |p.memory| == LevelCount && |p.logic| == LevelCount
    && |p.shapes| == LevelCount && |p.wildcard| == LevelCount
  }

  /** In a sorted duplicate-free list, entries differ at least as much as their positions. */
  lemma {:induction false} Spread(s: seq<int>, i: int, j: int)
    requires StrictlyIncreasing(s)
    requires 0 <= i <= j < |s|
    ensures s[j] - s[i] >= j - i
  {
    if i < j {
      Spread(s, i, j - 1);
    }
  }

  /** A sorted duplicate-free list within lo..hi that contains every value of
      lo..hi starts with exactly lo, lo+1, ..., hi. */
  lemma {:induction false} CoversRange(s: seq<int>, lo: int, hi: int, k: int)
    requires StrictlyIncreasing(s)
    requires forall i :: 0 <= i < |s| ==> lo <= s[i]
    requires forall v :: lo <= v <= hi ==> v in s
    requires 0 <= k <= hi - lo
    ensures k < |s| && s[k] == lo + k
  {
    assert lo + k in s;
    var j :| 0 <= j < |s| && s[j] == lo + k;
    if k == 0 {
      assert s[0] <= s[j] by {
        if 0 < j {}
      }
    } else {
      CoversRange(s, lo, hi, k - 1);
      assert j > k - 1;
      assert s[k] <= s[j] by {
        if k < j {}
      }
    }
  }

  /** A well-formed list has at most five entries, and has five exactly when
      every level 1..5 is in it. */
  lemma FullListMeansAllLevels(s: seq<int>)
    requires WellFormed(s)
    ensures |s| <= LevelCount
    ensures |s| == LevelCount <==> forall v :: 1 <= v <= LevelCount ==> v in s
  {
    if |s| > 0 {
      Spread(s, 0, |s| - 1);
    }
    if |s| == LevelCount {
      forall v | 1 <= v <= LevelCount
        ensures v in s
      {
        forall k | 0 <= k < |s|
          ensures s[k] == k + 1
        {
          Spread(s, 0, k);
          Spread(s, k, |s| - 1);
        }
        assert s[v - 1] == v;
      }
    }
    if forall v :: 1 <= v <= LevelCount ==> v in s {
      CoversRange(s, 1, LevelCount, LevelCount - 1);
    }
  }

  /** On a valid record the source's length test is the intended win condition:
      every level of every mode is completed. */
  lemma AllCompleteMeansEveryLevel(p: Record)
    requires Valid(p)
    ensures AllComplete(p) <==> forall m: Mode, v :: 1 <= v <= LevelCount ==> v in p.Completed(m)
  {
    assert p.memory == p.Completed(Memory);
    assert p.logic == p.Completed(Logic);
    assert p.shapes == p.Completed(Shapes);
    assert p.wildcard == p.Completed(Wildcard);
    FullListMeansAllLevels(p.memory);
    FullListMeansAllLevels(p.logic);
    FullListMeansAllLevels(p.shapes);
    FullListMeansAllLevels(p.wildcard);
  }
}

=== FILE: reaction_game.dfy ===
/** Wildcard level 1, the reaction-time challenge (script.js startReactionGame):
    click to arm, wait for the signal, click again within two seconds. */
module ReactionGame {

  /** A reaction strictly below this many milliseconds passes. */
  const Threshold: int := 2000

  /** `startTime` is when the signal showed, `started` that it is showing,
      `completed` that a response was taken and later clicks are ignored. */
  datatype State = State(startTime: int, started: bool, completed: bool)

  const Initial: State := State(0, false, false)

  /** Clicks carry the clock reading; the two timers are events of their own. */
  datatype Event =
    | Click(now: int)
    | SignalFired(now: int)  // the random 1..4 s delay armed by a click has run out
    | CooldownFired          // two seconds after a slow response

  datatype Effect =
    | NoEffect
    | ArmSignal                            // schedule a signal after a random delay
    | ScheduleCompletion(reaction: int)    // fast enough: complete the level in one second
    | ScheduleCooldown(reaction: int)      // too slow: allow a retry in two seconds

  /** One event. */
  function Step(s: State, e: Event): (r: (State, Effect))
    // a click is ignored while a response is being shown
    ensures e.Click? && s.completed ==> r == (s, NoEffect)
    // only the signal timer starts the clock, and it does unless a response is shown
    ensures r.0.started && !s.started ==> e.SignalFired? && r.0.startTime == e.now
    ensures e.SignalFired? && !s.completed ==> r.0.started && r.0.startTime == e.now && r.1 == NoEffect
    // a reaction time is taken only from a click after the signal
    ensures r.1.ScheduleCompletion? || r.1.ScheduleCooldown? ==>
              e.Click? && s.started && !s.completed && r.1.reaction == e.now - s.startTime
    ensures r.1.ScheduleCompletion? ==> r.1.reaction < Threshold
    ensures r.1.ScheduleCooldown? ==> r.1.reaction >= Threshold
    ensures e.Click? && s.started && !s.completed ==>
              (r.1.ScheduleCompletion? || r.1.ScheduleCooldown?) && r.0.completed && !r.0.started
    // only the cooldown clears `completed`, and it always does
    ensures s.completed && !r.0.completed ==> e.CooldownFired?
    ensures e.CooldownFired? ==> !r.0.completed
  {
    match e
    case Click(now) =>
      if s.completed then (s, NoEffect)
      else if !s.started then (s, ArmSignal)
      else
        var reaction := now - s.startTime;
        var next := s.(completed := true, started := false);
        if reaction < Threshold then (next, ScheduleCompletion(reaction))
        else (next, ScheduleCooldown(reaction))
    case SignalFired(now) =>
      if s.completed then (s, NoEffect)
      else (s.(startTime := now, started := true), NoEffect)
    case CooldownFired =>
      (s.(completed := false), NoEffect)
  }

  /** A click exactly two seconds after the signal is too slow. */
  lemma ExactlyThresholdFails(start: int)
    ensures Step(State(start, true, false), Click(start + 2000)).1 == ScheduleCooldown(2000)
  {
  }

  /** A click before the signal only arms it; no reaction time is taken. */
  lemma EarlyClickOnlyArms(s: State, now: int)
    requires !s.started && !s.completed
    ensures Step(s, Click(now)) == (s, ArmSignal)
  {
  }

  // ----------------------------------------------------------------------------
  // The game together with the timers it has scheduled
  // ----------------------------------------------------------------------------

  /** The game state, how many signal and cooldown timers are still pending,
      and how many level completions have been scheduled so far. */
  datatype Machine = Machine(game: State, signals: nat, cooldowns: nat, completions: nat)

  const Boot: Machine := Machine(Initial, 0, 0, 0)

  /** A timer event can only happen while such a timer is pending. */
  predicate Enabled(m: Machine, e: Event)
  {
    match e
    case Click(_) => true
    case SignalFired(_) => m.signals > 0
    case CooldownFired => m.cooldowns > 0
  }

  /** One event: the fired timer leaves the pending set and every scheduled one joins it. */
  function Next(m: Machine, e: Event): (r: Machine)
    ensures !Enabled(m, e) ==> r == m
    ensures r.completions == m.completions || r.completions == m.completions + 1
  {
    if !Enabled(m, e) then m
    else
      var signals := if e.SignalFired? then m.signals - 1 else m.signals;
      var cooldowns := if e.CooldownFired? then m.cooldowns - 1 else m.cooldowns;
      var (game, effect) := Step(m.game, e);
      match effect
      case NoEffect => Machine(game, signals, cooldowns, m.completions)
      case ArmSignal => Machine(game, signals + 1, cooldowns, m.completions)
      case ScheduleCompletion(_) => Machine(game, signals, cooldowns, m.completions + 1)
      case ScheduleCooldown(_) => Machine(game, signals, cooldowns + 1, m.completions)
  }

  function Run(m: Machine, es: seq<Event>): Machine
    decreases |es|
  {
    if |es| == 0 then m else Run(Next(m, es[0]), es[1..])
  }

  /** While a response is shown, exactly one thing can end it: the cooldown of
      a slow response. After a fast one nothing can. */
  ghost predicate Inv(m: Machine)
  {
    && m.completions <= 1
    && (!m.game.completed ==> m.cooldowns == 0 && m.completions == 0)
    && (m.game.completed ==> m.cooldowns + m.completions == 1)
  }

  lemma NextKeepsInv(m: Machine, e: Event)
    requires Inv(m)
    ensures Inv(Next(m, e))
  {
  }

  /** However the player clicks and the timers fire, the level is completed at most once. */
  lemma {:induction false} AtMostOneCompletion(m: Machine, es: seq<Event>)
    requires Inv(m)
    ensures Run(m, es).completions <= 1
    ensures Inv(Run(m, es))
    decreases |es|
  {
    if |es| > 0 {
      NextKeepsInv(m, es[0]);
      AtMostOneCompletion(Next(m, es[0]), es[1..]);
    }
  }

  lemma BootCompletesAtMostOnce(es: seq<Event>)
    ensures Run(Boot, es).completions <= 1
  {
    AtMostOneCompletion(Boot, es);
  }

  /** The level can be won: arm, wait for the signal, and click within two
      seconds of it, and exactly one completion is scheduled. */
  lemma QuickClickCompletes(t0: int, t1: int, t2: int)
    requires 0 <= t2 - t1 < Threshold
    ensures Run(Boot, [Click(t0), SignalFired(t1), Click(t2)]).completions == 1
  {
    var es := [Click(t0), SignalFired(t1), Click(t2)];
    var m1 := Next(Boot, Click(t0));
    assert m1 == Machine(Initial, 1, 0, 0);
    var m2 := Next(m1, SignalFired(t1));
    assert m2 == Machine(State(t1, true, false), 0, 0, 0);
    var m3 := Next(m2, Click(t2));
    assert m3.completions == 1;
    assert Run(m2, es[2..]) == Run(m3, []) by { assert es[2..][1..] == []; }
    assert Run(m1, es[1..]) == Run(m2, es[2..]) by { assert es[1..][1..] == es[2..]; }
  }
}

=== FILE: rhythm_game.dfy ===
/** Wildcard level 5, rhythm matching (script.js startRhythmGame): the page
    plays a rhythm of four intervals, then the player taps it back; every
    tapped interval must be within 200 ms of the one played. */
module RhythmGame {

  /** Each tapped interval may differ from the played one by at most this many milliseconds. */
  const Tolerance: int := 200

  /** The five rhythms, as the intervals between consecutive beats in milliseconds. */
  const Rhythms: seq<seq<int>> := [
    [500, 500, 1000, 500],
    [1000, 500, 500, 1000],
    [500, 1000, 500, 500],
    [750, 750, 500, 500],
    [500, 500, 500, 1500]
  ]

  /** `target` is the drawn rhythm, `player` the intervals tapped so far,
      `lastTap` the time of the latest tap (0 before the first one), and
      `listening` that playback has ended and taps are recorded. */
  datatype State = State(target: seq<int>, player: seq<int>, lastTap: int, listening: bool)

  /** Clicks carry the clock reading; the two timers are events of their own. */
  datatype Event =
    | AreaClicked(now: int)
    | PlaybackDone   // half a second after the last beat was played
    | ResetFired     // two seconds after a failed attempt

  datatype Effect =
    | NoEffect
    | StartPlayback   // play the rhythm (it is played again on every click while not listening)
    | Matched         // complete the level
    | ScheduleReset   // show "Not quite right" and reset in two seconds

  function Start(index: int): (s: State)
    requires 0 <= index < |Rhythms|
    ensures s.target == Rhythms[index] && s.player == [] && s.lastTap == 0 && !s.listening
  {
    State(Rhythms[index], [], 0, false)
  }

  function Abs(x: int): nat
  {
    if x < 0 then -x else x
  }

  /** One tapped interval is close enough to the played one (the bound is inclusive). */
  predicate Close(tapped: int, played: int)
  {
    Abs(tapped - played) <= Tolerance
  }

  /** Every interval, one by one, is close enough: no averaging. */
  predicate Matches(player: seq<int>, target: seq<int>)
  {
    |player| == |target| && forall i | 0 <= i < |target| :: Close(player[i], target[i])
  }

  /** `checkRhythm`: walk the intervals and stop at the first one out of tolerance. */
  method CheckRhythm(player: seq<int>, target: seq<int>) returns (accurate: bool)
    requires |player| == |target|
    ensures accurate <==> Matches(player, target)
  {
    accurate := true;
    var i := 0;
    while i < |target|
      invariant 0 <= i <= |target|
      invariant accurate
      invariant forall k :: 0 <= k < i ==> Close(player[k], target[k])
    {
      if Abs(player[i] - target[i]) > Tolerance {
        accurate := false;
        break;
      }
      i := i + 1;
    }
  }

  /** A click on the rhythm area at time `now`. While not listening it starts
      playback. Otherwise the first tap only sets the anchor, and each later
      tap records the interval since the previous tap; the tap that records
      as many intervals as the rhythm has triggers the comparison. */
  function Click(s: State, now: int): (r: (State, Effect))
    ensures r.0.target == s.target && r.0.listening == s.listening
    ensures !s.listening ==> r == (s, StartPlayback)
    ensures s.listening && s.lastTap == 0 ==> r == (s.(lastTap := now, player := []), NoEffect)
    ensures s.listening && s.lastTap != 0 ==>
              r.0.player == s.player + [now - s.lastTap] && r.0.lastTap == now
    // the comparison runs exactly when the last interval arrives
    ensures r.1 in {Matched, ScheduleReset} <==>
              s.listening && s.lastTap != 0 && |s.player| + 1 == |s.target|
    ensures r.1 == Matched ==> Matches(r.0.player, s.target)
    ensures r.1 == ScheduleReset ==> !Matches(r.0.player, s.target)
  {
    if !s.listening then (s, StartPlayback)
    else if s.lastTap == 0 then (s.(lastTap := now, player := []), NoEffect)
    else
      var next := s.(player := s.player + [now - s.lastTap], lastTap := now);
      if |next.player| == |s.target| then
        (next, if Matches(next.player, s.target) then Matched else ScheduleReset)
      else (next, NoEffect)
  }

  /** One event. A failed attempt is reset in place: the same rhythm is kept. */
  function Step(s: State, e: Event): (r: (State, Effect))
    ensures r.0.target == s.target
    ensures e.ResetFired? ==> r.0 == State(s.target, [], 0, false)
    ensures e.PlaybackDone? ==> r.0 == s.(listening := true)
    ensures e.AreaClicked? ==> r == Click(s, e.now)
  {
    match e
    case AreaClicked(now) => Click(s, now)
    case PlaybackDone => (s.(listening := true), NoEffect)
    case ResetFired => (s.(listening := false, lastTap := 0, player := []), NoEffect)
  }

  // ----------------------------------------------------------------------------
  // A whole attempt
  // ----------------------------------------------------------------------------

  /** The gaps between consecutive tap times. */
  function Intervals(times: seq<int>): (r: seq<int>)
    ensures |times| > 0 ==> |r| == |times| - 1
    ensures forall i :: 0 <= i < |times| - 1 ==> r[i] == times[i + 1] - times[i]
  {
    if |times| <= 1 then [] else seq(|times| - 1, i requires 0 <= i < |times| - 1 => times[i + 1] - times[i])
  }

  lemma IntervalsSnoc(times: seq<int>)
    requires |times| > 1
    ensures Intervals(times) == Intervals(times[..|times| - 1]) + [times[|times| - 1] - times[|times| - 2]]
  {
    var front := times[..|times| - 1];
    assert Intervals(front) + [times[|times| - 1] - front[|front| - 1]] == Intervals(times);
  }

  /** Taps at the given times, in order, with the effect of each. */
  function Taps(s: State, times: seq<int>): (r: (State, seq<Effect>))
    ensures |r.1| == |times|
    decreases |times|
  {
    if |times| == 0 then (s, [])
    else
      var (s1, es) := Taps(s, times[..|times| - 1]);
      var (s2, e) := Click(s1, times[|times| - 1]);
      (s2, es + [e])
  }

  /** Up to the last interval, taps at positive times only record the intervals between them. */
  lemma {:induction false} TapsRecordIntervals(s: State, times: seq<int>)
    requires s.listening && s.lastTap == 0
    requires 0 < |times| <= |s.target|
    requires forall i :: 0 <= i < |times| ==> times[i] > 0
    ensures Taps(s, times).0 == s.(player := Intervals(times), lastTap := times[|times| - 1])
    ensures forall i :: 0 <= i < |times| ==> Taps(s, times).1[i] == NoEffect
    decreases |times|
  {
    var front := times[..|times| - 1];
    var last := times[|times| - 1];
    TapsLast(s, times);
    if |front| > 0 {
      TapsRecordIntervals(s, front);
      IntervalsSnoc(times);
      var s1 := Taps(s, front).0;
      assert s1.lastTap == front[|front| - 1] > 0;
      MiddleTap(s1, last);
    } else {
      assert Taps(s, front) == (s, []);
    }
  }

  /** Taps unfold from the end: the last tap is a click on the state the earlier ones leave. */
  lemma TapsLast(s: State, times: seq<int>)
    requires |times| > 0
    ensures var front := Taps(s, times[..|times| - 1]);
            var click := Click(front.0, times[|times| - 1]);
            Taps(s, times) == (click.0, front.1 + [click.1])
  {
  }

  /** A tap before the last interval records its interval and does nothing else. */
  lemma MiddleTap(s: State, now: int)
    requires s.listening && s.lastTap != 0
    requires |s.player| + 1 < |s.target|
    ensures Click(s, now) == (s.(player := s.player + [now - s.lastTap], lastTap := now), NoEffect)
  {
  }

  /** The tap that brings the recorded intervals up to the rhythm's length
      runs the comparison on exactly those intervals. */
  lemma LastTap(s: State, now: int)
    requires s.listening && s.lastTap != 0
    requires |s.player| + 1 == |s.target|
    ensures Click(s, now).0.player == s.player + [now - s.lastTap]
    ensures Click(s, now).1 == Matched <==> Matches(s.player + [now - s.lastTap], s.target)
    ensures Click(s, now).1 == ScheduleReset <==> !Matches(s.player + [now - s.lastTap], s.target)
  {
  }

  /** A full attempt from a fresh anchor: taps at positive times, one more than
      the rhythm has intervals, complete the level iff each interval between
      them is within tolerance of the rhythm's; otherwise the reset is
      scheduled. No earlier tap has any effect. */
  lemma AttemptOutcome(s: State, times: seq<int>)
    requires s.listening && s.lastTap == 0
    requires |s.target| > 0
    requires |times| == |s.target| + 1
    requires forall i :: 0 <= i < |times| ==> times[i] > 0
    ensures Taps(s, times).1[|times| - 1] == Matched <==> Matches(Intervals(times), s.target)
    ensures Taps(s, times).1[|times| - 1] == ScheduleReset <==> !Matches(Intervals(times), s.target)
    ensures forall i :: 0 <= i < |times| - 1 ==> Taps(s, times).1[i] == NoEffect
  {
    var front := times[..|times| - 1];
    var last := times[|times| - 1];
    TapsRecordIntervals(s, front);
    var s1 := Taps(s, front).0;
    var es1 := Taps(s, front).1;
    IntervalsSnoc(times);
    assert s1.player == Intervals(front) && s1.lastTap == times[|times| - 2];
    LastTap(s1, last);
    TapsLast(s, times);
  }

  /** The worked example: intervals 520, 480, 1150, 510 match 500, 500, 1000, 500,
      but 1250 for the third is 250 ms off and fails the whole attempt. */
  lemma ToleranceIsPerInterval()
    ensures Matches([520, 480, 1150, 510], Rhythms[0])
    ensures !Matches([520, 480, 1250, 510], Rhythms[0])
    ensures Matches([700, 500, 1000, 500], Rhythms[0]) && !Matches([701, 500, 1000, 500], Rhythms[0])
  {
    var r := Rhythms[0];
    assert r == [500, 500, 1000, 500];
    assert Close(520, r[0]) && Close(480, r[1]) && Close(1150, r[2]) && Close(510, r[3]);
    assert Close(700, r[0]) && Close(500, r[1]) && Close(1000, r[2]) && Close(500, r[3]);
    assert !Close(1250, r[2]);
    assert !Close(701, r[0]);
  }

  /** Every rhythm has four positive intervals. */
  lemma RhythmsHaveFourBeats(i: int)
    requires 0 <= i < |Rhythms|
    ensures |Rhythms[i]| == 4
    ensures forall j :: 0 <= j < 4 ==> Rhythms[i][j] > 0
  {
    var r := Rhythms[i];
    if i == 0 { assert r == [500, 500, 1000, 500]; }
    else if i == 1 { assert r == [1000, 500, 500, 1000]; }
    else if i == 2 { assert r == [500, 1000, 500, 500]; }
    else if i == 3 { assert r == [750, 750, 500, 500]; }
    else { assert r == [500, 500, 500, 1500]; }
  }
}

=== FILE: shape_game.dfy ===
/** The shape-matching game of shapes mode (script.js startShapeGame): drag
    each shape onto the target slot showing the same shape in the same colour. */
module ShapeGame {
  import opened Wrappers

  datatype Kind = Circle | Square | Triangle
  datatype Paint = Red | Blue | Green | Yellow | Purple

  /** A shape as its `"type colour"` data attribute names it. */
  datatype Shape = Shape(kind: Kind, paint: Paint)

  /** One level's table entry: the shapes to drag and the target slots. */
  datatype Layout = Layout(shapes: seq<Shape>, targets: seq<Shape>)

  const RedCircle := Shape(Circle, Red)
  const BlueSquare := Shape(Square, Blue)
  const GreenTriangle := Shape(Triangle, Green)
  const YellowCircle := Shape(Circle, Yellow)
  const PurpleSquare := Shape(Square, Purple)

  /** The layouts of levels 1..5. */
  const Layouts: seq<Layout> := [
    Layout([RedCircle], [RedCircle]),
    Layout([RedCircle, BlueSquare], [RedCircle, BlueSquare]),
    Layout([RedCircle, BlueSquare, GreenTriangle], [GreenTriangle, RedCircle, BlueSquare]),
    Layout([RedCircle, BlueSquare, GreenTriangle, YellowCircle],
           [YellowCircle, GreenTriangle, BlueSquare, RedCircle]),
    Layout([RedCircle, BlueSquare, GreenTriangle, YellowCircle, PurpleSquare],
           [PurpleSquare, YellowCircle, GreenTriangle, BlueSquare, RedCircle])
  ]

  /** `placed[i]` is set once shape `i` sits in its slot (its dragging is
      disabled); `count` is the source's `correctPlacements`. */
  datatype State = State(layout: Layout, placed: seq<bool>, count: nat)

  datatype StartError = NoSuchLevel

  datatype Outcome = Reverted | Placed | ScheduleCompletion

  /** The slot's `accept` test: the same shape name, nothing geometric. */
  predicate Accepts(shape: Shape, target: Shape)
  {
    shape == target
  }

  /** The number of placed shapes. */
  function PlacedCount(placed: seq<bool>): (n: nat)
    ensures n <= |placed|
    ensures n == |placed| <==> forall i :: 0 <= i < |placed| ==> placed[i]
  {
    if |placed| == 0 then 0
    else (if placed[0] then 1 else 0) + PlacedCount(placed[1..])
  }

  ghost predicate Valid(s: State)
  {
    |s.placed| == |s.layout.shapes| && s.count == PlacedCount(s.placed)
  }

  function Start(level: int): (r: Result<State, StartError>)
    ensures r.Success? <==> 1 <= level <= |Layouts|
    ensures r.Success? ==> Valid(r.value) && r.value.layout == Layouts[level - 1] && r.value.count == 0
  {
    if 1 <= level <= |Layouts| then
      var layout := Layouts[level - 1];
      NothingPlacedYet(|layout.shapes|);
      Success(State(layout, seq(|layout.shapes|, _ => false), 0))
    else Failure(NoSuchLevel)
  }

  lemma {:induction false} NothingPlacedYet(n: nat)
    ensures PlacedCount(seq(n, _ => false)) == 0
  {
    if n > 0 {
      assert seq(n, _ => false)[1..] == seq(n - 1, _ => false);
      NothingPlacedYet(n - 1);
    }
  }

  lemma {:induction false} PlacedCountUpdate(placed: seq<bool>, i: int)
    requires 0 <= i < |placed| && !placed[i]
    ensures PlacedCount(placed[i := true]) == PlacedCount(placed) + 1
  {
    if i > 0 {
      assert placed[i := true][1..] == placed[1..][i - 1 := true];
      PlacedCountUpdate(placed[1..], i - 1);
    }
  }

  /** Shape `i` is dropped on slot `j`. A placed shape cannot be dragged any
      more and a refused drop reverts; an accepted drop counts one placement,
      and the placement that reaches the number of slots completes the level. */
  function Drop(s: State, i: int, j: int): (r: (State, Outcome))
    requires Valid(s)
    requires 0 <= i < |s.layout.shapes| && 0 <= j < |s.layout.targets|
    ensures Valid(r.0) && r.0.layout == s.layout
    ensures r.1 == Reverted <==> s.placed[i] || !Accepts(s.layout.shapes[i], s.layout.targets[j])
    ensures r.1 == Reverted ==> r.0 == s
    ensures r.1 != Reverted ==> r.0.placed == s.placed[i := true] && r.0.count == s.count + 1
    ensures |s.layout.shapes| == |s.layout.targets| ==>
              (r.1 == ScheduleCompletion <==> r.1 != Reverted && forall k :: 0 <= k < |r.0.placed| ==> r.0.placed[k])
  {
    if s.placed[i] || !Accepts(s.layout.shapes[i], s.layout.targets[j]) then (s, Reverted)
    else
      PlacedCountUpdate(s.placed, i);
      var next := s.(placed := s.placed[i := true], count := s.count + 1);
      if next.count == |s.layout.targets| then (next, ScheduleCompletion) else (next, Placed)
  }

  /** Once every shape is placed, every further drop reverts: the level is
      completed once. */
  lemma DropsAfterCompletionRevert(s: State, i: int, j: int)
    requires Valid(s)
    requires 0 <= i < |s.layout.shapes| && 0 <= j < |s.layout.targets|
    requires s.count == |s.layout.shapes|
    ensures Drop(s, i, j) == (s, Reverted)
  {
  }

  /** Sequences without repeated entries. */
  ghost predicate Distinct<T>(xs: seq<T>)
  {
    forall a, b :: 0 <= a < b < |xs| ==> xs[a] != xs[b]
  }

  /** Level N lays out N distinct shapes, and its slots are the same shapes in
      another order, so every shape has exactly one slot that accepts it. */
  lemma LayoutsMatchOneToOne()
    ensures forall n :: 0 <= n < |Layouts| ==> OneToOne(n)
  {
    forall n | 0 <= n < |Layouts|
      ensures OneToOne(n)
    {
      if n == 0 { Row0(); }
      else if n == 1 { Row1(); }
      else if n == 2 { Row2(); }
      else if n == 3 { Row3(); }
      else { Row4(); }
    }
  }

  /** Row `n` lays out n + 1 distinct shapes and its slots are a permutation of them. */
  ghost predicate OneToOne(n: int)
    requires 0 <= n < |Layouts|
  {
    |Layouts[n].shapes| == n + 1
    && Distinct(Layouts[n].shapes)
    && multiset(Layouts[n].targets) == multiset(Layouts[n].shapes)
  }

  // One small proof per row keeps each comparison cheap.
  lemma Row0() ensures OneToOne(0) {}
  lemma Row1() ensures OneToOne(1) {}
  lemma Row2() ensures OneToOne(2) {}
  lemma Row3() ensures OneToOne(3) {}
  lemma Row4() ensures OneToOne(4) {}

  /** In a layout whose slots are a permutation of distinct shapes, each shape
      is accepted by exactly one slot. */
  lemma {:induction false} UniqueSlot(layout: Layout, i: int)
    requires Distinct(layout.shapes)
    requires multiset(layout.targets) == multiset(layout.shapes)
    requires 0 <= i < |layout.shapes|
    ensures exists j :: 0 <= j < |layout.targets| && Accepts(layout.shapes[i], layout.targets[j])
    ensures forall j, k :: 0 <= j < k < |layout.targets| ==>
              !(Accepts(layout.shapes[i], layout.targets[j]) && Accepts(layout.shapes[i], layout.targets[k]))
  {
    var x := layout.shapes[i];
    assert x in multiset(layout.targets);
    forall j, k | 0 <= j < k < |layout.targets| && layout.targets[j] == x
      ensures layout.targets[k] != x
    {
      if layout.targets[k] == x {
        assert multiset(layout.targets)[x] >= 2 by {
          CountTwice(layout.targets, j, k);
        }
        CountOnce(layout.shapes, i);
      }
    }
  }

  /** Exactly one slot of the layout accepts shape `i`. */
  ghost predicate ExactlyOneSlot(layout: Layout, i: int)
    requires 0 <= i < |layout.shapes|
  {
    && (exists j :: 0 <= j < |layout.targets| && Accepts(layout.shapes[i], layout.targets[j]))
    && forall j, k :: 0 <= j < k < |layout.targets| ==>
         !(Accepts(layout.shapes[i], layout.targets[j]) && Accepts(layout.shapes[i], layout.targets[k]))
  }

  /** So on every level each shape has exactly one slot that accepts it. */
  lemma EveryShapeHasOneSlot(level: int, i: int)
    requires 1 <= level <= |Layouts| && 0 <= i < level
    ensures ExactlyOneSlot(Layouts[level - 1], i)
  {
    LayoutsMatchOneToOne();
    assert OneToOne(level - 1);
    UniqueSlot(Layouts[level - 1], i);
  }

  /** Two positions holding the same value make it occur at least twice. */
  lemma {:induction false} CountTwice<T>(xs: seq<T>, j: int, k: int)
    requires 0 <= j < k < |xs| && xs[j] == xs[k]
    ensures multiset(xs)[xs[j]] >= 2
  {
    assert xs == xs[..k] + [xs[k]] + xs[k + 1..];
    assert xs[j] in multiset(xs[..k]) by {
      assert xs[..k][j] == xs[j];
    }
  }

  /** A value of a sequence without repeats occurs exactly once. */
  lemma {:induction false} CountOnce<T>(xs: seq<T>, i: int)
    requires Distinct(xs) && 0 <= i < |xs|
    ensures multiset(xs)[xs[i]] == 1
  {
    assert xs == xs[..i] + [xs[i]] + xs[i + 1..];
    assert forall a :: 0 <= a < i ==> xs[..i][a] == xs[a];
    assert xs[i] !in xs[..i];
    var after := xs[i + 1..];
    assert forall a :: 0 <= a < |after| ==> after[a] == xs[i + 1 + a];
    assert xs[i] !in after;
  }
}

=== FILE: word_game.dfy ===
/** Wildcard level 4, word unscrambling (script.js startWordScrambleGame): show
    a scrambled word; the answer field upper-cases what is typed, and the
    trimmed answer must equal the word. */
module WordGame {

  /** One table row: the word and the scrambled form shown. */
  datatype Puzzle = Puzzle(word: string, scrambled: string)

  const Puzzles: seq<Puzzle> := [
    Puzzle("PUZZLE", "ZZLEPU"),
    Puzzle("BRAIN", "NIARB"),
    Puzzle("SMART", "TRAMS"),
    Puzzle("LOGIC", "CIGOL"),
    Puzzle("THINK", "KNIHT")
  ]

  /** `word` is the drawn row's word, `field` the answer field's text. */
  datatype State = State(word: string, field: string)

  datatype Outcome = Solved | Cleared

  // ----------------------------------------------------------------------------
  // Case and white space
  // ----------------------------------------------------------------------------

  predicate IsLower(c: char)
  {
    'a' <= c <= 'z'
  }

  predicate IsUpper(c: char)
  {
    'A' <= c <= 'Z'
  }

  /** The two characters outside a..z whose upper-case form is a single
      letter A..Z: dotless i and long s. */
  predicate UpperToAscii(c: char)
  {
    c == '\U{131}' || c == '\U{17F}'
  }

  /** `toUpperCase` of one character, for a..z and for the characters that
      upper-case to one of A..Z; every other character is kept. */
  function UpperChar(c: char): (u: char)
    ensures IsLower(c) ==> IsUpper(u) && u as int == c as int - 32
    ensures c == '\U{131}' ==> u == 'I'
    ensures c == '\U{17F}' ==> u == 'S'
    ensures !IsLower(c) && !UpperToAscii(c) ==> u == c
  {
    if IsLower(c) then (c as int - 32) as char
    else if c == '\U{131}' then 'I'
    else if c == '\U{17F}' then 'S'
    else c
  }

  /** `toUpperCase`, one character at a time. */
  function Upper(s: string): (r: string)
    ensures |r| == |s|
    ensures forall i :: 0 <= i < |s| ==> r[i] == UpperChar(s[i])
  {
    seq(|s|, i requires 0 <= i < |s| => UpperChar(s[i]))
  }

  /** The characters `trim` removes: the ECMAScript white space and line terminators. */
  predicate IsSpace(c: char)
  {
    var n := c as int;
    n == 0x09 || n == 0x0A || n == 0x0B || n == 0x0C || n == 0x0D || n == 0x20
    || n == 0xA0 || n == 0x1680 || (0x2000 <= n <= 0x200A) || n == 0x2028 || n == 0x2029
    || n == 0x202F || n == 0x205F || n == 0x3000 || n == 0xFEFF
  }

  ghost predicate AllSpace(s: string)
  {
    forall i :: 0 <= i < |s| ==> IsSpace(s[i])
  }

  /** The length of the white-space run `s` starts with. */
  function LeadingSpaces(s: string): (k: nat)
    ensures k <= |s|
    ensures forall i :: 0 <= i < k ==> IsSpace(s[i])
    ensures k < |s| ==> !IsSpace(s[k])
  {
    if |s| > 0 && IsSpace(s[0]) then 1 + LeadingSpaces(s[1..]) else 0
  }

  /** The length of the white-space run `s` ends with. */
  function TrailingSpaces(s: string): (k: nat)
    ensures k <= |s|
    ensures forall i :: |s| - k <= i < |s| ==> IsSpace(s[i])
    ensures k < |s| ==> !IsSpace(s[|s| - k - 1])
  {
    if |s| > 0 && IsSpace(s[|s| - 1]) then 1 + TrailingSpaces(s[..|s| - 1]) else 0
  }

  /** `trim`: drop white space at both ends. The result is the part of `s`
      between an all-space head and an all-space tail, and it neither starts
      nor ends with white space. */
  function Trim(s: string): (r: string)
    ensures var a := LeadingSpaces(s);
            a + |r| <= |s| && r == s[a..a + |r|] && AllSpace(s[a + |r|..])
    ensures |r| > 0 ==> !IsSpace(r[0]) && !IsSpace(r[|r| - 1])
  {
    var a := LeadingSpaces(s);
    var rest := s[a..];
    var r := rest[..|rest| - TrailingSpaces(rest)];
    var tail := s[a + |r|..];
    assert forall i :: 0 <= i < |tail| ==> tail[i] == rest[|r| + i];
    r
  }

  // ----------------------------------------------------------------------------
  // The game
  // ----------------------------------------------------------------------------

  /** Every keystroke replaces the field's text by its upper-case form. */
  function Input(s: State, typed: string): (r: State)
    ensures r.word == s.word
    ensures |r.field| == |typed|
    ensures forall i :: 0 <= i < |typed| ==> !IsLower(r.field[i])
    ensures forall i :: 0 <= i < |typed| ==> r.field[i] == UpperChar(typed[i])
  {
    s.(field := Upper(typed))
  }

  /** "Check Word": success iff the trimmed field equals the word; a miss empties the field. */
  function Check(s: State): (r: (State, Outcome))
    ensures r.1 == Solved ==> r.0 == s
    ensures r.1 == Cleared ==> r.0 == s.(field := "")
    ensures r.1 == Solved <==> Trim(s.field) == s.word
  {
    if Trim(s.field) == s.word then (s, Solved) else (s.(field := ""), Cleared)
  }

  /** `trim` returns exactly the word between white-space runs, whatever
      their lengths. */
  lemma TrimStripsBlanks(pre: string, w: string, post: string)
    requires AllSpace(pre) && AllSpace(post)
    requires |w| > 0 && !IsSpace(w[0]) && !IsSpace(w[|w| - 1])
    ensures Trim(pre + w + post) == w
  {
    var s := pre + w + post;
    var a := LeadingSpaces(s);
    assert s[|pre|] == w[0];
    assert a == |pre|;
    var rest := s[a..];
    assert rest == w + post;
    var t := TrailingSpaces(rest);
    assert rest[|w| - 1] == w[|w| - 1];
    assert t == |post|;
    assert rest[..|rest| - t] == w;
  }

  /** Any spelling that upper-cases to the word, with any blanks around it,
      solves the row. */
  lemma AnyCaseSolves(s: State, pre: string, w: string, post: string)
    requires AllSpace(pre) && AllSpace(post)
    requires |s.word| > 0 && !IsSpace(s.word[0]) && !IsSpace(s.word[|s.word| - 1])
    requires Upper(w) == s.word
    ensures Check(Input(s, pre + w + post)).1 == Solved
  {
    var typed := pre + w + post;
    var f := Input(s, typed).field;
    var g := pre + s.word + post;
    assert f == g by {
      forall i | 0 <= i < |f|
        ensures f[i] == g[i]
      {
        if i < |pre| {
          assert typed[i] == pre[i] && g[i] == pre[i];
        } else if i < |pre| + |w| {
          assert typed[i] == w[i - |pre|] && g[i] == s.word[i - |pre|];
        } else {
          assert typed[i] == post[i - |pre| - |w|] && g[i] == post[i - |pre| - |w|];
        }
      }
    }
    TrimStripsBlanks(pre, s.word, post);
  }

  /** Lower-case letters and surrounding blanks are accepted: typing "puzzle "
      solves the PUZZLE row. */
  lemma LowerCaseWithTrailingSpaceSolves()
    ensures Check(Input(State("PUZZLE", ""), "puzzle ")).1 == Solved
  {
    var typed := "puzzle ";
    var f := Upper(typed);
    assert f == "PUZZLE" + " " by {
      forall i | 0 <= i < |f|
        ensures f[i] == ("PUZZLE" + " ")[i]
      {
        assert f[i] == UpperChar(typed[i]);
      }
    }
    TrimStripsBlanks("", "PUZZLE", " ");
    assert "" + "PUZZLE" + " " == f;
  }

  /** `toUpperCase` maps dotless i to I, so typing "bra\u0131n" solves the
      BRAIN row. */
  lemma DotlessISolves()
    ensures Check(Input(State("BRAIN", ""), "bra\U{131}n")).1 == Solved
  {
    var typed := "bra\U{131}n";
    var f := Upper(typed);
    assert f == "BRAIN" by {
      forall i | 0 <= i < |f|
        ensures f[i] == "BRAIN"[i]
      {
        assert f[i] == UpperChar(typed[i]);
      }
    }
    TrimStripsBlanks("", "BRAIN", "");
    assert "" + "BRAIN" + "" == f;
  }

  /** Upper-casing twice is upper-casing once. */
  lemma UpperIdempotent(s: string)
    ensures Upper(Upper(s)) == Upper(s)
  {
  }

  /** Each scrambled form uses exactly the letters of its word, in another
      order, and every word is upper-case letters only. */
  lemma {:induction false} ScrambleIsPermutation(i: int)
    requires 0 <= i < |Puzzles|
    ensures multiset(Puzzles[i].scrambled) == multiset(Puzzles[i].word)
    ensures Puzzles[i].scrambled != Puzzles[i].word
    ensures forall j :: 0 <= j < |Puzzles[i].word| ==> IsUpper(Puzzles[i].word[j])
  {
    if i == 0 { Letters0(); Upper0(); }
    else if i == 1 { Letters1(); Upper1(); }
    else if i == 2 { Letters2(); Upper2(); }
    else if i == 3 { Letters3(); Upper3(); }
    else { Letters4(); Upper4(); }
  }

  // One small proof per row and property keeps each comparison cheap.

  ghost predicate Scrambled(p: Puzzle)
  {
    multiset(p.scrambled) == multiset(p.word) && p.scrambled != p.word
  }

  ghost predicate UpperWord(w: string)
  {
    forall j :: 0 <= j < |w| ==> IsUpper(w[j])
  }

  lemma Letters0() ensures Scrambled(Puzzles[0]) {}
  lemma Letters1() ensures Scrambled(Puzzles[1]) {}
  lemma Letters2() ensures Scrambled(Puzzles[2]) {}
  lemma Letters3() ensures Scrambled(Puzzles[3]) {}
  lemma Letters4() ensures Scrambled(Puzzles[4]) {}
  lemma Upper0() ensures UpperWord(Puzzles[0].word) {}
  lemma Upper1() ensures UpperWord(Puzzles[1].word) {}
  lemma Upper2() ensures UpperWord(Puzzles[2].word) {}
  lemma Upper3() ensures UpperWord(Puzzles[3].word) {}
  lemma Upper4() ensures UpperWord(Puzzles[4].word) {}
}

=== FILE: wrappers.dfy ===
/** Failure-carrying datatypes shared by the modules of the puzzle portal model. */
module Wrappers {

  /** A value that may be absent (a JavaScript `undefined`, `NaN` or empty field). */
  datatype Option<+T> = None | Some(value: T)

  /** The outcome of an operation that can fail with an error of type `E`. */
  datatype Result<+R, +E> = Success(value: R) | Failure(error: E)
}
